=== FILE: README.md ===
# gemlite core in Dafny

A model of `gemlite/core.py`, the layer classes of gemlite. gemlite multiplies
activations by a weight matrix whose entries are stored as 1, 2, 4 or 8-bit codes
packed into 32-bit words. The model covers four pieces:

- the two constructors, `GemLiteLinearCUDA.__init__` and `GemLiteLinearTriton.__init__`,
  with the CUDA kernel tables and `cdiv`;
- layout A, the CUDA backend's `pack` and `unpack`. The codes are padded, cut into
  tiles of 32, and each run of `32 // nbits` tile rows is packed into one row of words,
  first code in the top bits;
- layout B, the Triton backend's `pack`. The weight is transposed, and each run of
  `32 // nbits` input rows is packed into one row of words, first code in the low bits.
  The scales and zeros are transposed to one row per group;
- the Triton autotune cache: `warmup`, `forward_auto` and `forward_manual`.

Modules, leaves first:

- `Base`: the dtype enum, the error kinds, `Result`, and recursive division helpers
  `Div` and `Mod`; `Base.DivIsBuiltin` shows they agree with Dafny's `/` and `%`, which
  for natural numbers is Python's `//` and `%`.
- `Bits`: 32-bit words as 32 booleans, low bit first. It defines torch's int32 `<<`,
  `|`, arithmetic `>>` and `& mask`, packs one word either way round, and proves each
  packing against a reference layout.
- `Matrix`: rectangular `seq<seq<T>>` tensors, `flatten`, `reshape`, `t()` and padding.
- `Runs`: runs of `32 // nbits` rows packed into one row of words, for both field
  orders. Both layouts share it.
- `Config`: both constructors, the kernel tables and `cdiv`.
- `LayoutA`, `LayoutB`: the two `pack`s, `unpack`, and their round trips.
- `Autotune`: the cache, `np.argmin`, `warmup`, `forward_auto` and `forward_manual`.

Errors are a `Result` whose error names the Python exception:
- `NotImplemented`, `KeyError`, `TypeError` and `ZeroDivision` name the Python
  exceptions of the same names;
- `ShapeError` is a reshape or view that cannot give the requested shape;
- `IndexError` is `x.shape[-1]` of a zero-dimensional tensor;
- `AssertionFailed` is a failed `assert`;
- `EmptyArgmin` is `np.argmin` of an empty list;
- `MissingAttribute` is an AttributeError.

## Error and edge behaviour

- A bit width outside the supported set raises `KeyError` in the CUDA constructor
  (a dictionary lookup) and `NotImplementedError` in the Triton constructor.
- The CUDA `unpack` returns the padded matrix, padding columns included.
- The Triton backend has no `unpack`. `LayoutB.ExtractB` is an inverse that exists in
  the model only.
- A kernel that raises while being timed makes `warmup` raise: the exception propagates
  out of `forward_auto`. The model treats timings as a total function.
- The trailing dimension of an input is passed to the kernel as it is; nothing compares
  it with `in_features` before the kernel call.

## Model

| member | source | states |
|---|---|---|
| Config.GemvFp16Table | gemlite/core.py:26-30 | the FP16 GEMV table has an entry for exactly 2, 4 and 8 bits; each entry is the kernel for that bit width with FP16 input; any other width is a KeyError |
| Config.GemvInt8Table | gemlite/core.py:32-36 | the INT8 GEMV table has an entry for exactly 2, 4 and 8 bits; each entry is the kernel for that bit width with INT8 input; any other width is a KeyError |
| Config.CudaInit | gemlite/core.py:45-92 | construction succeeds iff nbits is 2, 4 or 8, and either (a) FP16 in and out with a positive group size dividing in*out, or (b) INT8 in, INT32 out, with group size equal to in*out. The error cases: NotImplementedError for other dtype pairs; KeyError for an unsupported width; TypeError for a None group size in the FP16 branch; ZeroDivisionError for 0; NotImplementedError for a positive FP16 group size that does not divide in*out, and for an INT8 group size other than in*out. On success: the chosen kernel has the layer's bit width and input family; has_scales == zero_is_tensor == FP16 input; the signature keeps the raw group size; group_size falls back to in_features |
| Config.CdivIsCeiling | gemlite/core.py:193-194 | for b > 0, `cdiv(a, b)` is the least q with q*b >= a |
| Config.TritonInit | gemlite/core.py:198-272 | construction succeeds iff nbits is 1, 2, 4 or 8, both feature counts are multiples of 128, the dtypes are FP16/FP16 or BF16/BF16, and the resolved group size is non-zero. Every other rejection is NotImplementedError, except a zero group size on an otherwise valid layer, which is ZeroDivisionError from `cdiv`. On success the signature keeps the raw group size |
| Config.TritonInitFields | gemlite/core.py:228-247 | FP16 layers list GEMM then GEMV with float16 compute; BF16 layers list only GEMM with bfloat16 compute. The accumulator defaults to FP16 exactly for float16 compute, and otherwise follows acc_dtype. num_groups is the ceiling of in/group_size. 32 // nbits codes fill a word, and the mask is 2**nbits - 1 |
| Bits.SarFieldIsField | gemlite/core.py:149 | masking an arithmetic right shift of an int32 word gives the same n-bit field as a logical read, even when the sign bit is set |
| Bits.PackMsbField | gemlite/core.py:108-113 | in a word ORed from codes shifted by 32-(i+1)*n, the field at that shift holds code i |
| Bits.PackMsbRoundTrip | gemlite/core.py:108-113 | unpacking a word packed top-first gives back its 32/n codes, when each code fits in n bits |
| Bits.PackMsbOfUnpack | gemlite/core.py:146-149 | every word is the top-first packing of the fields `unpack` reads from it |
| Bits.PackLsbField | gemlite/core.py:282-285 | in a word ORed from codes shifted by i*n, the field at that shift holds code i |
| Bits.PackLsbRoundTrip | gemlite/core.py:282-285 | reading the fields of a word packed low-first gives back its codes, when each code fits |
| Bits.PackLsbOfUnpack | gemlite/core.py:282-285 | every word is the low-first packing of its own fields |
| Runs.PackRunsField | gemlite/core.py:110-113 | in packed row g, word t, the field of code i holds row g*step+i, column t, of the input rows |
| Runs.RunsRoundTrip | gemlite/core.py:110-113 | unpacking packed runs of fitting rows gives back the rows |
| Runs.RunsInverse | gemlite/core.py:146-149 | packing unpacked runs gives back the packed rows |
| LayoutA.PadAmountLeast | gemlite/core.py:99-103 | the padding is below step, makes the column count a multiple of step, and is 0 exactly when step already divides it |
| LayoutA.Padded | gemlite/core.py:100-103 | the padded matrix keeps every input row as the prefix of its row, holds 0 in the added columns, and has padded_cols columns |
| LayoutA.PackWords | gemlite/core.py:96-115 | every failure is a shape error; on success, the packed weight has the input's row count and padded_cols // step columns |
| LayoutA.PackWordsAccepts | gemlite/core.py:105-115 | the weight packs iff the padded matrix has some entries and its entry count is a multiple of 32 * step; otherwise the reshape raises a shape error |
| LayoutA.PackWordsAt | gemlite/core.py:106-115 | packed word g*32+t holds, in field i from the top, entry (g*step+i)*32+t of the padded, flattened weight |
| LayoutA.Unpack | gemlite/core.py:138-151 | `view((-1, 32))` succeeds iff the packed matrix has a positive number of words that is a multiple of 32 (`LayoutA.Unpackable`), and otherwise raises a shape error; on success the codes have the packed row count, step times the packed columns, and fit in nbits |
| LayoutA.PackUnpack | gemlite/core.py:96-151 | unpacking what `pack` produced gives back the padded matrix, whose first cols columns are the input (`LayoutA.Padded`) |
| LayoutA.UnpackPack | gemlite/core.py:96-151 | for every packed matrix `unpack` accepts, it succeeds, and packing what it produced gives back the packed matrix |
| LayoutA.AsTensor | gemlite/core.py:120 | a scalar becomes the 1x1 tensor [[v]] and a tensor is kept; None raises TypeError |
| LayoutA.PackCuda | gemlite/core.py:116-131 | a weight reshape error propagates. Otherwise the call raises AssertionError exactly when the presence of scales differs from has_scales, or a scalar-zero layer gets tensor zeros. A tensor-zero layer given None zeros raises TypeError. On success the packed weight is the weight half's result. A tensor-zero layer stores scales and zeros as tensors; a scalar-zero layer stores no scales and its scalar zero as it is |
| LayoutA.UnpackAsWrittenFails | gemlite/core.py:138-143 | on every packed layer, `unpack` as written raises AttributeError, while the corrected unpack of the packed weight gives back the padded codes |
| LayoutB.ReshapeT | gemlite/core.py:291-292 | `reshape((rows, cols)).t()` succeeds iff the element count is rows*cols; otherwise it raises a shape error; the result is (cols, rows) |
| LayoutB.ReshapeTAt | gemlite/core.py:291-292 | entry (j, i) of the result is input entry i*cols+j |
| LayoutB.RunCount | gemlite/core.py:277-287 | with in_features a multiple of 128, step divides in_features, and `in // 32 * nbits` rows of step input rows cover it exactly |
| LayoutB.PackB | gemlite/core.py:275-292 | pack succeeds iff the weight has out*in codes and the scales and zeros have out * (in // group_size) entries each; any other count raises a shape error. The packed weight has `in // 32 * nbits` rows of out words. The packed scales and zeros are the transposes of the inputs read as (out, in // group_size): row g holds group g of every output. Extracting the packed layer gives back the codes, scales and zeros, when the codes fit |
| LayoutB.PackBField | gemlite/core.py:276-287 | the code of output o at input j, reading the codes as the (out, in) weight, sits in packed row j // step, word o, at shift (j % step)*nbits |
| LayoutB.ExtractB | gemlite/core.py:275-292 | the model-side inverse of `pack` gives out*in codes that fit in nbits, and out * (in // group_size) scales and zeros |
| LayoutB.PackBInverse | gemlite/core.py:275-292 | packing what was extracted from a well-shaped packed layer gives back that layer |
| Autotune.Candidates | gemlite/core.py:301-304 | a kernel is timed iff the layer lists it and it is not a GEMV kernel at a batch above 8 |
| Autotune.CandidatesInOrder | gemlite/core.py:301-304 | the timed kernels keep the layer's order: timed kernel i is some `self.kernels[a]`, and the kernels timed before it are exactly the unskipped ones among `self.kernels[:a]` |
| Autotune.ArgMin | gemlite/core.py:305 | `np.argmin` is defined iff the list is non-empty; it returns a minimum with every earlier entry strictly larger (the first minimum); an empty list raises |
| Autotune.Warmup | gemlite/core.py:298-309 | warm-up succeeds iff some kernel is timed, and changes only the entry under the key. The stored kernel is a timed one, stored with its own time. No timed kernel is faster. In the layer's own kernel order, every kernel before the stored one that is timed is strictly slower, so a tie goes to the kernel the layer lists first. Above a batch of 8 the stored kernel is never a GEMV kernel |
| Autotune.WarmupAsWritten | gemlite/core.py:298-309 | the code as written succeeds under the same condition and changes only the entry under the key |
| Autotune.WarmupAsWrittenQuirk | gemlite/core.py:305-309 | for kernels [GEMV, GEMM] at a batch above 8, the code as written stores GEMV with GEMM's time; the corrected warm-up stores GEMM |
| Autotune.WarmupAsWrittenAgrees | gemlite/core.py:229-234 | for every layer the constructor builds, the code as written and the corrected warm-up store the same entry |
| Autotune.Rows2d | gemlite/core.py:316 | `x.view(-1, x.shape[-1])` succeeds iff x has a non-zero last dimension. A zero-dimensional x raises IndexError; a zero last dimension raises a shape error |
| Autotune.ForwardAuto | gemlite/core.py:312-331 | an input that does not view as 2-D raises before the cache is looked at, with the error of `Autotune.Rows2d`. Otherwise, afterwards the key `(x.shape[0],) + signature` is cached, and the kernel that runs is the cached one. The only key added is that one, and existing entries stay as they were. A hit returns the cache unchanged with the stored kernel. A miss succeeds iff some kernel is timed for the batch `x.shape[0]`, and then stores the fastest |
| Autotune.ViewRows | gemlite/core.py:316 | the number of rows of `x.view(-1, x.shape[-1])`: times the last dimension it gives the element count; a 1-D input is one row, a 2-D input `x.shape[0]` rows |
| Autotune.AutoKeyIgnoresDtype | gemlite/core.py:223-233 | with GEMV timed faster at a batch of at most 8, an FP16 layer caches GEMV; a BF16 layer of the same sizes, bit width and group size then hits that entry and runs GEMV, which is not among its kernels and has no (BF16, GEMV) table entry |
| Autotune.AutoKeyBatchOfVector | gemlite/core.py:316-329 | a 1-D input is one row for the kernel, but its key batch is in_features, at least 128, so GEMV is never timed and GEMM is cached |
| Autotune.AutoKeyBatchOf3d | gemlite/core.py:316-329 | an input of shape [2, 16, in_features] is 32 rows for the kernel, but its key batch is 2, so a faster GEMV kernel is cached and runs on 32 rows |
| Autotune.ForwardAutoTyped | gemlite/core.py:312-331 | `forward_auto` keyed by the kernel's row count, the input dtype and the signature: a bad shape raises; a hit reuses the entry; a miss stores the fastest kernel timed for that many rows; only that key is added |
| Autotune.ForwardAutoTypedSound | gemlite/core.py:223-233 | with that key, for every constructed layer and every coherent cache (each entry holds a kernel listed for its key's dtype, and no entry for more than 8 rows holds GEMV), a well-shaped input always runs one of the layer's own kernels, never GEMV on more than 8 rows, and the cache stays coherent for the next layer |
| Autotune.Mapping | gemlite/core.py:187-191 | the table is defined for exactly (FP16, GEMV), (FP16, GEMM) and (BF16, GEMM); the kernel found has the requested matmul type; other pairs raise KeyError |
| Autotune.ForwardManual | gemlite/core.py:337-354 | an unknown (dtype, matmul type) pair raises KeyError before the input is looked at. The call succeeds iff the pair is known and the input views as 2-D; the kernel that runs has the requested matmul type |
| Autotune.AutoLargeBatchIsGemm | gemlite/core.py:327-331 | for a constructed layer and a key batch `x.shape[0]` above 8, a cache miss selects the kernel `forward_manual(x, "GEMM")` runs |

## Left out

- Bits.Code: codes are 0..255, as for the uint8 weights the CUDA layer expects. `pack`
  casts any integer tensor with `.to(torch.int32)`, so negative codes and codes of 256
  or more are not modelled.
- Runs.RunsRoundTrip, LayoutA.PackUnpack, LayoutB.PackB: the round trips need
  codes that fit in nbits bits. A wider code is ORed into its neighbours' fields and
  cannot be recovered.
- Config.CudaInit: the bit width, feature counts and group size are natural numbers.
  Python accepts negatives: an FP16 layer with `group_size=-16` passes the divisibility
  test, because Python's `%` takes the divisor's sign and the remainder is 0.
- Config.TritonInit: the sizes are natural numbers as well. A negative group size would
  make `cdiv` and `//` floor toward minus infinity.
- LayoutA.Unpack: the `dtype` argument is fixed to uint8, its default. The codes
  `unpack` produces are always below 256, so they fit.
- LayoutA.PadAmount: the padding is exact integer arithmetic. The source computes it
  with `np.ceil` on a float quotient, which agrees for every column count below 2**53.
- LayoutA.PackCuda: scales and zeros are reals or matrices of reals. Their float16
  dtype, and the device they are moved to, are not modelled.
- LayoutA.PackCuda: the layer is not mutated. `pack` assigns `self.W_q` (core.py:115)
  before the `has_scales` and zero asserts (core.py:116-131), so a failing `pack` leaves
  the layer holding the new weight and the old scales and zeros; the model returns a
  fresh record or an error and keeps no partly updated layer.
- LayoutB.PackB: the layer is not mutated either. `pack` builds `self.W_q` in place
  (core.py:277-289) before the `scales` and `zeros` reshapes (core.py:291-292), so a
  failing reshape leaves the new weight with the old metadata; the model returns a fresh
  record or an error.
- Autotune.Warmup: `eval_time` (a `do_bench` measurement) is the `Timer` parameter. A
  kernel that raises while being timed is not modelled.
- Autotune.ForwardAuto: `GEMLITE_TRITON_CACHE` is passed in and returned rather than
  held in a global. Concurrent calls with the same key are not modelled.
- Autotune.ForwardAuto, Autotune.ForwardManual: the kernels are foreign Triton code,
  kept as names. The model stops at the kernel choice and at the input's 2-D view; the
  output, its `.view(out_shape)` and the bias add are not modelled.
- The CUDA `forward` (core.py:154-160) calls a foreign CUDA kernel and is left out
  entirely.
- `bias` and `device` in both `pack`s are left out. `bias` is only cast and stored.
- The meta-device buffers the Triton constructor registers are left out. Their shapes
  are `LayoutB.ShapedB` up to `cdiv` against `//`; see `LayoutB.NumGroups`.
- The `DType.FP16D8` member is declared but no constructor accepts it.

## Findings

| source | as written | input that shows it | evidently intended | confidence | as-written member | corrected member |
|---|---|---|---|---|---|---|
| gemlite/core.py:141-143 | `unpack` reads `self.W_q_packed`, which `pack` never sets (it sets `self.W_q`), so it raises AttributeError; its `W_q_packed` argument is never used | any layer after `pack`, e.g. FP16 in/out, 4 bits, group size 128, a 128 x 128 weight, then `unpack(layer.W_q)` | unpack the `W_q_packed` argument, giving back the padded codes | not executed | LayoutA.UnpackAsWritten (lemma LayoutA.UnpackAsWrittenFails) | LayoutA.Unpack (lemmas LayoutA.PackUnpack, LayoutA.UnpackPack) |
| gemlite/core.py:305-307 | `indx` is an index into the times of the kernels left after the GEMV skip, but the entry takes `self.kernels[indx]` | kernels [GEMV, GEMM] and a batch of 9: only GEMM is timed, `indx` = 0, and GEMV is stored with GEMM's time | store the timed kernel at `indx` | not executed (latent: every constructed layer lists GEMM first, so no layer the constructor builds hits it) | Autotune.WarmupAsWritten (lemma Autotune.WarmupAsWrittenQuirk) | Autotune.Warmup (lemma Autotune.WarmupAsWrittenAgrees) |
| gemlite/core.py:327-331 | the cache key is `(x.shape[0],) + signature`, and the signature leaves out the input dtype; FP16 layers list GEMM and GEMV, BF16 layers only GEMM | an FP16 layer (128 x 128, 4 bits, group size 128) runs a 1 x 128 input with GEMV timed faster and caches GEMV; a BF16 layer of the same sizes then runs GEMV on bfloat16 input | a key that tells the dtypes apart, so every layer runs one of its own kernels | not executed | Autotune.ForwardAuto (lemma Autotune.AutoKeyIgnoresDtype) | Autotune.ForwardAutoTyped (lemma Autotune.ForwardAutoTypedSound) |
| gemlite/core.py:316-327 | the key batch is `x.shape[0]`, but the kernel sees `x.view(-1, in_features)`, whose row count is the product of every dimension but the last | a 1-D input of 128 features: one row, key batch 128, GEMV never timed; an input of shape [2, 16, 128]: 32 rows, key batch 2, GEMV timed and cached | key by the row count of the 2-D view, so the GEMV skip above 8 rows applies to the rows the kernel sees | not executed | Autotune.ForwardAuto (lemmas Autotune.AutoKeyBatchOfVector, Autotune.AutoKeyBatchOf3d) | Autotune.ForwardAutoTyped (lemma Autotune.ForwardAutoTypedSound) |

=== FILE: autotune.dfy ===
/** The Triton layer's kernel choice: `warmup`, which times the layer's kernels and
    stores the fastest in the process-wide cache `GEMLITE_TRITON_CACHE`; `forward_auto`,
    which warms up only on a cache miss and then runs the cached kernel; and
    `forward_manual`, which picks a kernel from `GEMLITE_TRITON_MAPPING` by name. The
    timings are measurements and enter as a parameter; the kernels themselves are
    foreign code and are kept as names. */
module Autotune {

  import opened Base
  import opened Config

  /** `(x.shape[0],) + signature`, the cache key. */
  datatype Key = Key(batch: nat, signature: Signature)

  /** `{"forward": kernel.forward, "time": t}`, a cache entry. */
  datatype Entry = Entry(kernel: TritonKernel, time: real)

  /** `GEMLITE_TRITON_CACHE`, shared by every layer of the process. */
  type Cache = map<Key, Entry>

  /** `eval_time(kernel.forward, args)`: the measured latency of a kernel on the inputs
      behind a key. Warm-up is stated for any key type K, so that the corrected key below
      can share it. */
  type Timer<-K> = (TritonKernel, K) -> real

  // ---------------------------------------------------------------------------------
  // The kernels warmup times
  // ---------------------------------------------------------------------------------

  /** `signature[0] > 8 and kernel.matmul_type == "GEMV"`: GEMV kernels are skipped for
      batches above 8. */
  predicate Skipped(k: TritonKernel, batch: nat)
  {
    batch > 8 && k.MatmulType() == "GEMV"
  }

  /** The layer's kernels less the skipped ones, in the layer's order. */
  function Unskipped(ks: seq<TritonKernel>, batch: nat): seq<TritonKernel>
  {
    if |ks| == 0 then []
    else (if Skipped(ks[0], batch) then [] else [ks[0]]) + Unskipped(ks[1..], batch)
  }

  /** Exactly the kernels of the layer that are not skipped survive the filter. */
  lemma {:induction false} UnskippedMembers(ks: seq<TritonKernel>, batch: nat)
    ensures |Unskipped(ks, batch)| <= |ks|
    ensures forall k :: k in Unskipped(ks, batch) <==> k in ks && !Skipped(k, batch)
    decreases |ks|
  {
    if |ks| > 0 {
      UnskippedMembers(ks[1..], batch);
      assert forall k :: k in ks <==> k == ks[0] || k in ks[1..];
    }
  }

  /** The kernels `warmup` times, in the layer's order. */
  function Candidates(ks: seq<TritonKernel>, batch: nat): (c: seq<TritonKernel>)
    ensures |c| <= |ks|
    ensures forall k :: k in c <==> k in ks && !Skipped(k, batch)
  {
    UnskippedMembers(ks, batch);
    Unskipped(ks, batch)
  }

  /** The candidates keep the layer's order: candidate i is some ks[a], and the
      candidates before it are exactly those taken from ks[..a]. */
  lemma {:induction false} CandidatesInOrder(ks: seq<TritonKernel>, batch: nat, i: nat)
    requires i < |Candidates(ks, batch)|
    ensures exists a :: (0 <= a < |ks| && ks[a] == Candidates(ks, batch)[i] &&
      Candidates(ks[..a], batch) == Candidates(ks, batch)[..i])
  {
    UnskippedInOrder(ks, batch, i);
    var a :| 0 <= a < |ks| && ks[a] == Unskipped(ks, batch)[i] && Unskipped(ks[..a], batch) == Unskipped(ks, batch)[..i];
    assert Candidates(ks[..a], batch) == Unskipped(ks[..a], batch);
  }

  /** `CandidatesInOrder` for the plain filter, by induction on the layer's list. */
  lemma {:induction false} UnskippedInOrder(ks: seq<TritonKernel>, batch: nat, i: nat)
    requires i < |Unskipped(ks, batch)|
    ensures exists a :: (0 <= a < |ks| && ks[a] == Unskipped(ks, batch)[i] &&
      Unskipped(ks[..a], batch) == Unskipped(ks, batch)[..i])
    decreases |ks|
  {
    assert |ks| > 0;
    var k, rest := ks[0], ks[1..];
    assert ks == [k] + rest;
    UnskippedCons(k, rest, batch);
    if !Skipped(k, batch) && i == 0 {
      assert ks[..0] == [];
    } else {
      var i' := if Skipped(k, batch) then i else i - 1;
      UnskippedInOrder(rest, batch, i');
      var a' :| 0 <= a' < |rest| && rest[a'] == Unskipped(rest, batch)[i'] &&
        Unskipped(rest[..a'], batch) == Unskipped(rest, batch)[..i'];
      OrderStep(k, rest, batch, i', a');
      assert ks[a' + 1] == Unskipped(ks, batch)[i];
    }
  }

  /** The filter of a list with a given first kernel. */
  lemma {:induction false} UnskippedCons(k: TritonKernel, rest: seq<TritonKernel>, batch: nat)
    ensures Unskipped([k] + rest, batch) == (if Skipped(k, batch) then [] else [k]) + Unskipped(rest, batch)
  {
    assert ([k] + rest)[0] == k && ([k] + rest)[1..] == rest;
  }

  /** The candidates of a list of one or two kernels. */
  lemma {:induction false} CandidatesOfFew(x: TritonKernel, y: TritonKernel, batch: nat)
    ensures Candidates([x], batch) == (if Skipped(x, batch) then [] else [x])
    ensures Candidates([x, y], batch) == (if Skipped(x, batch) then [] else [x]) + (if Skipped(y, batch) then [] else [y])
  {
    UnskippedCons(x, [], batch);
    UnskippedCons(y, [], batch);
    assert [x, y] == [x] + [y];
    UnskippedCons(x, [y], batch);
  }

  /** One step of `UnskippedInOrder`: a kernel in front shifts the layer index by one
      and the candidate index by one if it is timed. */
  lemma {:induction false} OrderStep(k: TritonKernel, rest: seq<TritonKernel>, batch: nat, i: nat, a: nat)
    requires a < |rest| && i < |Unskipped(rest, batch)| && rest[a] == Unskipped(rest, batch)[i]
    requires Unskipped(rest[..a], batch) == Unskipped(rest, batch)[..i]
    ensures var i' := if Skipped(k, batch) then i else i + 1;
      i' < |Unskipped([k] + rest, batch)| &&
      ([k] + rest)[a + 1] == Unskipped([k] + rest, batch)[i'] &&
      Unskipped(([k] + rest)[..a + 1], batch) == Unskipped([k] + rest, batch)[..i']
  {
    var head := if Skipped(k, batch) then [] else [k];
    var cr := Unskipped(rest, batch);
    UnskippedCons(k, rest, batch);
    assert ([k] + rest)[..a + 1] == [k] + rest[..a];
    UnskippedCons(k, rest[..a], batch);
    ConcatAt(head, cr, i);
  }

  /** Indexing and taking a prefix past a known front. */
  lemma {:induction false} ConcatAt<T>(head: seq<T>, s: seq<T>, i: nat)
    requires i < |s|
    ensures (head + s)[|head| + i] == s[i]
    ensures (head + s)[..|head| + i] == head + s[..i]
  {
  }

  /** The list `t` of measured times, one per candidate. */
  function Times<K>(c: seq<TritonKernel>, key: K, lat: Timer<K>): (t: seq<real>)
    ensures |t| == |c|
  {
    seq(|c|, i requires 0 <= i < |c| => lat(c[i], key))
  }

  // ---------------------------------------------------------------------------------
  // np.argmin
  // ---------------------------------------------------------------------------------

  /** t[m] is a minimum of t[..upto], and every entry before it is strictly larger. */
  predicate FirstMin(t: seq<real>, m: nat, upto: nat)
    requires m < upto <= |t|
  {
    (forall j :: 0 <= j < upto ==> t[m] <= t[j]) && (forall j :: 0 <= j < m ==> t[m] < t[j])
  }

  /** The scan behind `np.argmin`: best is the first minimum of t[..i]. */
  function ArgMinFrom(t: seq<real>, i: nat, best: nat): (m: nat)
    requires best < i <= |t| && FirstMin(t, best, i)
    ensures m < |t| && FirstMin(t, m, |t|)
    decreases |t| - i
  {
    if i == |t| then best
    else if t[i] < t[best] then ArgMinFrom(t, i + 1, i)
    else ArgMinFrom(t, i + 1, best)
  }

  /** `np.argmin(t)`: the index of the first minimum; an empty list raises ValueError. */
  function ArgMin(t: seq<real>): (r: Result<nat>)
    ensures r.Ok? <==> |t| > 0
    ensures r.Err? ==> r.error == EmptyArgmin
    ensures r.Ok? ==> r.value < |t| && FirstMin(t, r.value, |t|)
  {
    if |t| == 0 then Err(EmptyArgmin) else Ok(ArgMinFrom(t, 1, 0))
  }

  // ---------------------------------------------------------------------------------
  // warmup
  // ---------------------------------------------------------------------------------

  /** The entry holds a candidate with its own time, no candidate is faster, and every
      candidate before it is slower. */
  predicate Fastest<K>(c: seq<TritonKernel>, key: K, lat: Timer<K>, e: Entry)
  {
    e.time == lat(e.kernel, key) &&
    (forall k :: k in c ==> e.time <= lat(k, key)) &&
    exists i :: 0 <= i < |c| && c[i] == e.kernel && forall j :: 0 <= j < i ==> e.time < lat(c[j], key)
  }

  /** `warmup(signature, args)` as it was evidently meant: time the candidates for the
      batch `signature[0]` and store the fastest, the first in the layer's order on a
      tie, with its time under the key. */
  function Warmup<K(==)>(ks: seq<TritonKernel>, batch: nat, key: K, lat: Timer<K>, cache: map<K, Entry>): (r: Result<map<K, Entry>>)
    ensures r.Ok? <==> |Candidates(ks, batch)| > 0
    ensures r.Err? ==> r.error == EmptyArgmin
    ensures r.Ok? ==> key in r.value && r.value == cache[key := r.value[key]]
    ensures r.Ok? ==> Fastest(Candidates(ks, batch), key, lat, r.value[key])
    ensures r.Ok? ==> r.value[key].kernel in ks && !Skipped(r.value[key].kernel, batch)
    ensures r.Ok? ==> exists a :: (0 <= a < |ks| && ks[a] == r.value[key].kernel &&
      forall j :: 0 <= j < a && !Skipped(ks[j], batch) ==> r.value[key].time < lat(ks[j], key))
  {
    var c := Candidates(ks, batch);
    var t := Times(c, key, lat);
    var i :- ArgMin(t);
    FirstMinIsFastest(c, key, lat, i);
    FirstInLayerOrder(ks, batch, key, lat, i);
    assert c[i] in c;
    Ok(cache[key := Entry(c[i], t[i])])
  }

  /** The first minimum among the candidates is, in the layer's own order, faster than
      every kernel that comes before it and is timed. */
  lemma {:induction false} FirstInLayerOrder<K>(ks: seq<TritonKernel>, batch: nat, key: K, lat: Timer<K>, i: nat)
    requires i < |Candidates(ks, batch)| && FirstMin(Times(Candidates(ks, batch), key, lat), i, |Candidates(ks, batch)|)
    ensures exists a :: (0 <= a < |ks| && ks[a] == Candidates(ks, batch)[i] &&
      forall j :: 0 <= j < a && !Skipped(ks[j], batch) ==> lat(Candidates(ks, batch)[i], key) < lat(ks[j], key))
  {
    var c := Candidates(ks, batch);
    var t := Times(c, key, lat);
    CandidatesInOrder(ks, batch, i);
    var a :| 0 <= a < |ks| && ks[a] == c[i] && Candidates(ks[..a], batch) == c[..i];
    forall j | 0 <= j < a && !Skipped(ks[j], batch)
      ensures lat(c[i], key) < lat(ks[j], key)
    {
      assert ks[j] == ks[..a][j];
      assert ks[j] in Candidates(ks[..a], batch);
      var m :| 0 <= m < i && c[..i][m] == ks[j];
      assert t[i] < t[m];
    }
  }

  /** The first minimum of the times is the fastest candidate. */
  lemma {:induction false} FirstMinIsFastest<K>(c: seq<TritonKernel>, key: K, lat: Timer<K>, i: nat)
    requires i < |c| && FirstMin(Times(c, key, lat), i, |c|)
    ensures Fastest(c, key, lat, Entry(c[i], lat(c[i], key)))
  {
    var t := Times(c, key, lat);
    var e := Entry(c[i], t[i]);
    forall k | k in c
      ensures e.time <= lat(k, key)
    {
      var j :| 0 <= j < |c| && c[j] == k;
      assert t[j] == lat(k, key);
    }
    assert forall j :: 0 <= j < i ==> e.time < lat(c[j], key) by {
      forall j | 0 <= j < i
        ensures e.time < lat(c[j], key)
      {
        assert t[j] == lat(c[j], key);
      }
    }
  }

  /** `warmup` as written: `indx` indexes the list of timed candidates, but the entry
      takes `self.kernels[indx]`, which is another kernel whenever a skipped GEMV kernel
      comes before the fastest candidate. */
  function WarmupAsWritten<K(==)>(ks: seq<TritonKernel>, batch: nat, key: K, lat: Timer<K>, cache: map<K, Entry>): (r: Result<map<K, Entry>>)
    ensures r.Ok? <==> |Candidates(ks, batch)| > 0
    ensures r.Err? ==> r.error == EmptyArgmin
    ensures r.Ok? ==> key in r.value && r.value == cache[key := r.value[key]]
  {
    var c := Candidates(ks, batch);
    var t := Times(c, key, lat);
    var i :- ArgMin(t);
    Ok(cache[key := Entry(ks[i], t[i])])
  }

  /** The quirk: with kernels [GEMV, GEMM] and a batch above 8 only GEMM is timed, yet
      the code as written stores the GEMV kernel, with GEMM's time, while the intended
      warmup stores GEMM. */
  lemma {:induction false} WarmupAsWrittenQuirk(key: Key, lat: Timer<Key>, cache: Cache)
    requires key.batch > 8
    ensures var ks := [GemvA16fWnO16f, GemmA16fWnO16f];
      WarmupAsWritten(ks, key.batch, key, lat, cache) == Ok(cache[key := Entry(GemvA16fWnO16f, lat(GemmA16fWnO16f, key))]) &&
      Warmup(ks, key.batch, key, lat, cache) == Ok(cache[key := Entry(GemmA16fWnO16f, lat(GemmA16fWnO16f, key))])
  {
    var ks := [GemvA16fWnO16f, GemmA16fWnO16f];
    CandidatesOfFew(GemvA16fWnO16f, GemmA16fWnO16f, key.batch);
  }

  /** Every layer the constructor builds lists GEMM first and GEMV, if at all, last, so
      the quirk never shows: the code as written stores what was intended. */
  lemma {:induction false} WarmupAsWrittenAgrees(
    nbits: nat, groupSize: Option<nat>, inF: nat, outF: nat, inDt: DType, outDt: DType, accDt: Option<DType>,
    key: Key, lat: Timer<Key>, cache: Cache)
    requires TritonInit(nbits, groupSize, inF, outF, inDt, outDt, accDt).Ok?
    ensures var ks := TritonInit(nbits, groupSize, inF, outF, inDt, outDt, accDt).value.kernels;
      WarmupAsWritten(ks, key.batch, key, lat, cache) == Warmup(ks, key.batch, key, lat, cache)
  {
    var ks := TritonInit(nbits, groupSize, inF, outF, inDt, outDt, accDt).value.kernels;
    TritonInitFields(nbits, groupSize, inF, outF, inDt, outDt, accDt);
    assert ks == [GemmA16fWnO16f, GemvA16fWnO16f] || ks == [GemmA16fWnO16f];
    CandidatesOfFew(GemmA16fWnO16f, GemvA16fWnO16f, key.batch);
    var c := Candidates(ks, key.batch);
    assert forall i :: 0 <= i < |c| ==> i < |ks| && c[i] == ks[i];
  }

  // ---------------------------------------------------------------------------------
  // forward_auto and forward_manual
  // ---------------------------------------------------------------------------------

  /** `x.view(-1, x.shape[-1])`: a zero-dimensional input has no last dimension, and a
      last dimension of 0 leaves the -1 ambiguous. The value is the last dimension. */
  function Rows2d(shape: seq<nat>): (r: Result<nat>)
    ensures r.Ok? <==> |shape| > 0 && shape[|shape| - 1] > 0
    ensures r.Ok? ==> r.value == shape[|shape| - 1]
    ensures |shape| == 0 ==> r == Err(IndexError)
    ensures |shape| > 0 && shape[|shape| - 1] == 0 ==> r == Err(ShapeError)
  {
    if |shape| == 0 then Err(IndexError)
    else if shape[|shape| - 1] == 0 then Err(ShapeError)
    else Ok(shape[|shape| - 1])
  }

  /** The product of the dimensions. */
  function Prod(dims: seq<nat>): nat
  {
    if |dims| == 0 then 1 else dims[0] * Prod(dims[1..])
  }

  /** The number of rows the kernel sees: `x.view(-1, x.shape[-1]).shape[0]`, the product
      of every dimension but the last. The view keeps the element count. */
  function ViewRows(shape: seq<nat>): (rows: nat)
    requires |shape| > 0
    ensures rows * shape[|shape| - 1] == Prod(shape)
    ensures |shape| == 1 ==> rows == 1
    ensures |shape| == 2 ==> rows == shape[0]
  {
    var dims := shape[..|shape| - 1];
    assert shape == dims + [shape[|shape| - 1]];
    ProdSnoc(dims, shape[|shape| - 1]);
    assert |shape| == 2 ==> dims == [shape[0]] && dims[1..] == [];
    Prod(dims)
  }

  /** The product of dimensions with one more at the end. */
  lemma {:induction false} ProdSnoc(dims: seq<nat>, x: nat)
    ensures Prod(dims + [x]) == Prod(dims) * x
    decreases |dims|
  {
    if |dims| > 0 {
      assert (dims + [x])[1..] == dims[1..] + [x];
      ProdSnoc(dims[1..], x);
      assert Prod(dims + [x]) == dims[0] * (Prod(dims[1..]) * x);
    }
  }

  /** `forward_auto(x)` up to the kernel call: build the key `(x.shape[0],) + signature`,
      warm up only when the key is missing, and run the cached kernel. Returns the cache
      afterwards and the kernel that runs. A hit times nothing and leaves the cache as it
      is; a miss stores the fastest candidate for the batch `x.shape[0]`. */
  function ForwardAuto(l: TritonLayer, shape: seq<nat>, lat: Timer<Key>, cache: Cache): (r: Result<(Cache, TritonKernel)>)
    ensures Rows2d(shape).Err? ==> r == Err(Rows2d(shape).error)
    ensures r.Ok? ==> |shape| > 0
    ensures r.Ok? ==> var key := Key(shape[0], l.signature);
      key in r.value.0 && r.value.1 == r.value.0[key].kernel
    ensures r.Ok? ==> var key := Key(shape[0], l.signature);
      r.value.0.Keys == cache.Keys + {key} && forall k :: k in cache ==> r.value.0[k] == cache[k]
    ensures Rows2d(shape).Ok? && Key(shape[0], l.signature) in cache ==>
      r == Ok((cache, cache[Key(shape[0], l.signature)].kernel))
    ensures Rows2d(shape).Ok? && Key(shape[0], l.signature) !in cache ==>
      (r.Ok? <==> |Candidates(l.kernels, shape[0])| > 0) &&
      (r.Ok? ==> Fastest(Candidates(l.kernels, shape[0]), Key(shape[0], l.signature), lat, r.value.0[Key(shape[0], l.signature)]))
  {
    var _ :- Rows2d(shape);
    var key := Key(shape[0], l.signature);
    var after :- if key in cache then Ok(cache) else Warmup(l.kernels, key.batch, key, lat, cache);
    Ok((after, after[key].kernel))
  }

  /** The cache key leaves out the input dtype: once an FP16 layer has cached its GEMV
      kernel for a batch of at most 8, a BF16 layer with the same sizes, bit width and
      group size hits that entry and runs the GEMV kernel, which is neither among its own
      kernels nor in the table for BF16. */
  lemma {:induction false} AutoKeyIgnoresDtype(
    nbits: nat, groupSize: Option<nat>, inF: nat, outF: nat, accDt: Option<DType>, shape: seq<nat>, lat: Timer<Key>)
    requires TritonInit(nbits, groupSize, inF, outF, FP16, FP16, accDt).Ok?
    requires Rows2d(shape).Ok? && shape[0] <= 8
    requires lat(GemvA16fWnO16f, Key(shape[0], Signature(inF, outF, nbits, groupSize))) <
             lat(GemmA16fWnO16f, Key(shape[0], Signature(inF, outF, nbits, groupSize)))
    ensures var fp := TritonInit(nbits, groupSize, inF, outF, FP16, FP16, accDt).value;
      var bf := TritonInit(nbits, groupSize, inF, outF, BF16, BF16, accDt);
      var first := ForwardAuto(fp, shape, lat, map[]);
      bf.Ok? && first.Ok? && first.value.1 == GemvA16fWnO16f &&
      ForwardAuto(bf.value, shape, lat, first.value.0) == Ok((first.value.0, GemvA16fWnO16f)) &&
      GemvA16fWnO16f !in bf.value.kernels && Mapping(BF16.Value(), "GEMV").Err?
  {
    var fp := TritonInit(nbits, groupSize, inF, outF, FP16, FP16, accDt).value;
    TritonInitFields(nbits, groupSize, inF, outF, FP16, FP16, accDt);
    TritonInitFields(nbits, groupSize, inF, outF, BF16, BF16, accDt);
    GemvWinsSmallBatch(shape[0], Key(shape[0], fp.signature), lat, map[]);
  }

  /** The cache key takes `x.shape[0]`, not the number of rows the kernel sees: a 1-D
      input of in_features values is one row, yet its key batch is in_features, at least
      128, so GEMV is never timed for it, however fast it would be. */
  lemma {:induction false} AutoKeyBatchOfVector(
    nbits: nat, groupSize: Option<nat>, inF: nat, outF: nat, accDt: Option<DType>, lat: Timer<Key>)
    requires TritonInit(nbits, groupSize, inF, outF, FP16, FP16, accDt).Ok? && inF > 0
    ensures var l := TritonInit(nbits, groupSize, inF, outF, FP16, FP16, accDt).value;
      ViewRows([inF]) == 1 && GemvA16fWnO16f in l.kernels &&
      GemvA16fWnO16f !in Candidates(l.kernels, inF) &&
      ForwardAuto(l, [inF], lat, map[]) == Ok((map[Key(inF, l.signature) := Entry(GemmA16fWnO16f, lat(GemmA16fWnO16f, Key(inF, l.signature)))], GemmA16fWnO16f))
  {
    var l := TritonInit(nbits, groupSize, inF, outF, FP16, FP16, accDt).value;
    TritonInitFields(nbits, groupSize, inF, outF, FP16, FP16, accDt);
    var ks := l.kernels;
    CandidatesOfFew(GemmA16fWnO16f, GemvA16fWnO16f, inF);
  }

  /** The cache key takes `x.shape[0]`: an input of shape [2, 16, in_features] is 32 rows,
      yet its key batch is 2, so GEMV is timed and, when it is faster, runs on 32 rows. */
  lemma {:induction false} AutoKeyBatchOf3d(
    nbits: nat, groupSize: Option<nat>, inF: nat, outF: nat, accDt: Option<DType>, lat: Timer<Key>)
    requires TritonInit(nbits, groupSize, inF, outF, FP16, FP16, accDt).Ok? && inF > 0
    requires lat(GemvA16fWnO16f, Key(2, Signature(inF, outF, nbits, groupSize))) <
             lat(GemmA16fWnO16f, Key(2, Signature(inF, outF, nbits, groupSize)))
    ensures var l := TritonInit(nbits, groupSize, inF, outF, FP16, FP16, accDt).value;
      ViewRows([2, 16, inF]) == 32 && ForwardAuto(l, [2, 16, inF], lat, map[]).Ok? &&
      ForwardAuto(l, [2, 16, inF], lat, map[]).value.1 == GemvA16fWnO16f
  {
    var l := TritonInit(nbits, groupSize, inF, outF, FP16, FP16, accDt).value;
    TritonInitFields(nbits, groupSize, inF, outF, FP16, FP16, accDt);
    ViewRowsOf3d(inF);
    GemvWinsSmallBatch(2, Key(2, l.signature), lat, map[]);
  }

  /** [2, 16, n] views as 32 rows. */
  lemma {:induction false} ViewRowsOf3d(n: nat)
    ensures ViewRows([2, 16, n]) == 32
  {
    assert [2, 16, n][..2] == [2, 16] && [2, 16][1..] == [16] && [16][1..] == [];
  }

  /** For the FP16 kernel list at a batch of at most 8, a faster GEMV kernel wins. */
  lemma {:induction false} GemvWinsSmallBatch<K>(batch: nat, key: K, lat: Timer<K>, cache: map<K, Entry>)
    requires batch <= 8 && lat(GemvA16fWnO16f, key) < lat(GemmA16fWnO16f, key)
    ensures Warmup([GemmA16fWnO16f, GemvA16fWnO16f], batch, key, lat, cache) ==
      Ok(cache[key := Entry(GemvA16fWnO16f, lat(GemvA16fWnO16f, key))])
  {
    var ks := [GemmA16fWnO16f, GemvA16fWnO16f];
    CandidatesOfFew(GemmA16fWnO16f, GemvA16fWnO16f, batch);
    var w := Warmup(ks, batch, key, lat, cache);
    var e := w.value[key];
    var a :| 0 <= a < |ks| && ks[a] == e.kernel &&
      forall j :: 0 <= j < a && !Skipped(ks[j], batch) ==> e.time < lat(ks[j], key);
    assert e.kernel == GemvA16fWnO16f;
  }

  /** A key that holds everything the kernel choice depends on: the number of rows the
      kernel sees, the input dtype, and the layer's signature. */
  datatype TypedKey = TypedKey(rows: nat, dtype: DType, signature: Signature)

  type TypedCache = map<TypedKey, Entry>

  /** The kernels a constructed layer lists for an input dtype. */
  function KernelsFor(dt: DType): seq<TritonKernel>
  {
    if dt == FP16 then [GemmA16fWnO16f, GemvA16fWnO16f]
    else if dt == BF16 then [GemmA16fWnO16f]
    else []
  }

  /** Every entry holds a kernel listed for its key's dtype, and no entry for more than 8
      rows holds a GEMV kernel. */
  predicate Coherent(cache: TypedCache)
  {
    forall k :: k in cache ==> cache[k].kernel in KernelsFor(k.dtype) && !Skipped(cache[k].kernel, k.rows)
  }

  /** `forward_auto` with the corrected key: the rows the kernel sees and the input dtype
      join the signature. A hit times nothing; a miss stores the fastest candidate for
      that many rows. */
  function ForwardAutoTyped(l: TritonLayer, shape: seq<nat>, lat: Timer<TypedKey>, cache: TypedCache): (r: Result<(TypedCache, TritonKernel)>)
    ensures Rows2d(shape).Err? ==> r == Err(Rows2d(shape).error)
    ensures r.Ok? ==> var key := TypedKey(ViewRows(shape), l.inputDtype, l.signature);
      key in r.value.0 && r.value.1 == r.value.0[key].kernel &&
      r.value.0.Keys == cache.Keys + {key} && forall k :: k in cache ==> r.value.0[k] == cache[k]
    ensures Rows2d(shape).Ok? && TypedKey(ViewRows(shape), l.inputDtype, l.signature) in cache ==>
      r == Ok((cache, cache[TypedKey(ViewRows(shape), l.inputDtype, l.signature)].kernel))
    ensures Rows2d(shape).Ok? && TypedKey(ViewRows(shape), l.inputDtype, l.signature) !in cache ==>
      (r.Ok? <==> |Candidates(l.kernels, ViewRows(shape))| > 0) &&
      (r.Ok? ==> Fastest(Candidates(l.kernels, ViewRows(shape)), TypedKey(ViewRows(shape), l.inputDtype, l.signature), lat, r.value.0[TypedKey(ViewRows(shape), l.inputDtype, l.signature)]))
  {
    var _ :- Rows2d(shape);
    var key := TypedKey(ViewRows(shape), l.inputDtype, l.signature);
    var after :- if key in cache then Ok(cache) else Warmup(l.kernels, key.rows, key, lat, cache);
    Ok((after, after[key].kernel))
  }

  /** With the corrected key, a constructed layer always runs one of its own kernels, never
      GEMV on more than 8 rows, and leaves the cache coherent for every layer after it. */
  lemma {:induction false} ForwardAutoTypedSound(
    nbits: nat, groupSize: Option<nat>, inF: nat, outF: nat, inDt: DType, outDt: DType, accDt: Option<DType>,
    shape: seq<nat>, lat: Timer<TypedKey>, cache: TypedCache)
    requires TritonInit(nbits, groupSize, inF, outF, inDt, outDt, accDt).Ok? && Coherent(cache)
    ensures var l := TritonInit(nbits, groupSize, inF, outF, inDt, outDt, accDt).value;
      var r := ForwardAutoTyped(l, shape, lat, cache);
      (r.Ok? <==> Rows2d(shape).Ok?) &&
      (r.Ok? ==> r.value.1 in l.kernels && !Skipped(r.value.1, ViewRows(shape)) && Coherent(r.value.0))
  {
    var l := TritonInit(nbits, groupSize, inF, outF, inDt, outDt, accDt).value;
    TritonInitFields(nbits, groupSize, inF, outF, inDt, outDt, accDt);
    assert l.kernels == KernelsFor(l.inputDtype);
    var r := ForwardAutoTyped(l, shape, lat, cache);
    if Rows2d(shape).Ok? {
      var key := TypedKey(ViewRows(shape), l.inputDtype, l.signature);
      assert GemmA16fWnO16f in Candidates(l.kernels, key.rows);
      if key !in cache {
        var w := Warmup(l.kernels, key.rows, key, lat, cache);
        assert w.Ok? && r.value.0 == w.value;
      }
    }
  }

  /** `GEMLITE_TRITON_MAPPING[(dtype, matmul_type)]`. */
  function Mapping(dtype: string, matmulType: string): (r: Result<TritonKernel>)
    ensures r.Ok? <==>
      (dtype, matmulType) == ("FP16", "GEMV") || (dtype, matmulType) == ("FP16", "GEMM") ||
      (dtype, matmulType) == ("BF16", "GEMM")
    ensures r.Ok? ==> r.value.MatmulType() == matmulType
    ensures r.Err? ==> r.error == KeyError
  {
    if dtype == "FP16" && matmulType == "GEMV" then Ok(GemvA16fWnO16f)
    else if (dtype == "FP16" || dtype == "BF16") && matmulType == "GEMM" then Ok(GemmA16fWnO16f)
    else Err(KeyError)
  }

  /** `forward_manual(x, matmul_type)` up to the kernel call: the table lookup comes
      before the arguments are built, so an unknown pair raises KeyError even for a
      zero-dimensional input. Returns the kernel that runs. */
  function ForwardManual(l: TritonLayer, shape: seq<nat>, matmulType: string): (r: Result<TritonKernel>)
    ensures Mapping(l.inputDtype.Value(), matmulType).Err? ==> r == Err(KeyError)
    ensures r.Ok? <==> Mapping(l.inputDtype.Value(), matmulType).Ok? && Rows2d(shape).Ok?
    ensures r.Ok? ==> r.value.MatmulType() == matmulType
  {
    var k :- Mapping(l.inputDtype.Value(), matmulType);
    var _ :- Rows2d(shape);
    Ok(k)
  }

  /** For a constructed layer and a key batch above 8, the automatic choice on a miss is
      the kernel `forward_manual(x, "GEMM")` runs. */
  lemma {:induction false} AutoLargeBatchIsGemm(
    nbits: nat, groupSize: Option<nat>, inF: nat, outF: nat, inDt: DType, outDt: DType, accDt: Option<DType>,
    shape: seq<nat>, lat: Timer<Key>, cache: Cache)
    requires TritonInit(nbits, groupSize, inF, outF, inDt, outDt, accDt).Ok?
    requires Rows2d(shape).Ok? && shape[0] > 8
    ensures var l := TritonInit(nbits, groupSize, inF, outF, inDt, outDt, accDt).value;
      Key(shape[0], l.signature) !in cache ==>
        ForwardAuto(l, shape, lat, cache).Ok? && ForwardManual(l, shape, "GEMM").Ok? &&
        ForwardAuto(l, shape, lat, cache).value.1 == ForwardManual(l, shape, "GEMM").value
  {
    var l := TritonInit(nbits, groupSize, inF, outF, inDt, outDt, accDt).value;
    TritonInitFields(nbits, groupSize, inF, outF, inDt, outDt, accDt);
    var ks := l.kernels;
    CandidatesOfFew(GemmA16fWnO16f, GemvA16fWnO16f, shape[0]);
    assert l.inputDtype == FP16 || l.inputDtype == BF16;
  }
}

=== FILE: base.dfy ===
/** Shared vocabulary: the dtype enum, the exceptions the layers raise, a
    failure-compatible result type, and Python's floor division on naturals. */
module Base {

  /** The `DType` enum. */
  datatype DType = FP16 | BF16 | FP32 | INT8 | INT32 | FP16D8 {

    /** The member's Python string value, `DType.value`. */
    function Value(): string
    {
      match this
      case FP16 => "FP16"
      case BF16 => "BF16"
      case FP32 => "FP32"
      case INT8 => "INT8"
      case INT32 => "INT32"
      case FP16D8 => "FP16D8i"
    }
  }

  /** The Python exceptions the modelled code can raise. */
  datatype Error =
    | NotImplemented   // NotImplementedError from a constructor
    | KeyError         // a missing key in a kernel table
    | TypeError        // a `None` where a number is needed
    | ZeroDivision     // `//` or `%` by a zero group size
    | ShapeError       // a torch reshape, view or broadcast that cannot give the requested shape
    | AssertionFailed  // a failed `assert`
    | EmptyArgmin      // `np.argmin` of an empty list (ValueError)
    | IndexError       // indexing past the end: the shape of a zero-dimensional input
    | MissingAttribute // reading an attribute that was never set (AttributeError)

  datatype Result<+T> = Ok(value: T) | Err(error: Error) {

    predicate IsFailure() { Err? }

    function PropagateFailure<U>(): Result<U>
      requires Err?
    {
      Err(error)
    }

    function Extract(): T
      requires Ok?
    {
      value
    }
  }

  datatype Option<+T> = None | Some(value: T)

  /** Python's `j // n` on naturals. */
  function Div(j: nat, n: nat): nat
    requires n > 0
    decreases j
  {
    if j < n then 0 else 1 + Div(j - n, n)
  }

  /** Python's `j % n` on naturals. */
  function Mod(j: nat, n: nat): (r: nat)
    requires n > 0
    ensures r < n
    decreases j
  {
    if j < n then j else Mod(j - n, n)
  }

  /** `n` divides `j`. */
  predicate Divides(n: nat, j: nat)
    requires n > 0
  {
    Mod(j, n) == 0
  }

  /** Quotient and remainder recompose the dividend. */
  lemma {:induction false} DivMod(j: nat, n: nat)
    requires n > 0
    ensures n * Div(j, n) + Mod(j, n) == j
    decreases j
  {
    if j >= n {
      DivMod(j - n, n);
      assert n * Div(j, n) == n + n * Div(j - n, n);
    }
  }

  /** The recursive definitions agree with Dafny's built-in division on naturals,
      which for non-negative operands is Python's floor division. */
  lemma {:induction false} DivIsBuiltin(j: nat, n: nat)
    requires n > 0
    ensures Div(j, n) == j / n && Mod(j, n) == j % n
  {
    DivMod(j, n);
    var q, r := Div(j, n), Mod(j, n);
    var q', r' := j / n, j % n;
    assert n * q' + r' == j && r' < n;
    if q < q' {
      MulStep(n, q, q');
    } else if q' < q {
      MulStep(n, q', q);
    }
  }

  lemma {:induction false} MulStep(n: nat, a: nat, b: nat)
    requires a < b
    ensures n * a + n <= n * b
    decreases b - a
  {
    if a + 1 < b {
      MulStep(n, a + 1, b);
    }
  }

  /** `(n * k) // n == k` and `(n * k) % n == 0`. */
  lemma {:induction false} DivMul(n: nat, k: nat)
    requires n > 0
    ensures Div(n * k, n) == k && Mod(n * k, n) == 0
    decreases k
  {
    if k > 0 {
      DivMul(n, k - 1);
      assert n * k - n == n * (k - 1);
    }
  }

  /** A multiple of n is n times its quotient. */
  lemma {:induction false} DividesMul(n: nat, j: nat)
    requires n > 0 && Divides(n, j)
    ensures j == n * Div(j, n)
  {
    DivMod(j, n);
  }

  /** A positive factor cancels. */
  lemma {:induction false} MulCancel(k: nat, a: nat, b: nat)
    requires k > 0 && k * a == k * b
    ensures a == b
  {
    if a < b {
      MulStep(k, a, b);
    } else if b < a {
      MulStep(k, b, a);
    }
  }

  /** Dividing by a and then by b is dividing by a * b. */
  lemma {:induction false} DividesTwice(a: nat, b: nat, x: nat)
    requires a > 0 && b > 0
    ensures Divides(a, x) && Divides(b, Div(x, a)) <==> Divides(a * b, x)
    ensures Divides(a * b, x) ==> Div(Div(x, a), b) == Div(x, a * b)
  {
    if Divides(a * b, x) {
      DividesTwiceFrom(a, b, x);
    }
    if Divides(a, x) && Divides(b, Div(x, a)) {
      DividesTwiceTo(a, b, x);
    }
  }

  lemma {:induction false} DividesTwiceFrom(a: nat, b: nat, x: nat)
    requires a > 0 && b > 0 && Divides(a * b, x)
    ensures Divides(a, x) && Divides(b, Div(x, a)) && Div(Div(x, a), b) == Div(x, a * b)
  {
    var k := Div(x, a * b);
    DividesMul(a * b, x);
    var bk := b * k;
    assert x == a * bk by {
      assert x == (a * b) * k;
    }
    DivMul(a, bk);
    DivMul(b, k);
  }

  lemma {:induction false} DividesTwiceTo(a: nat, b: nat, x: nat)
    requires a > 0 && b > 0 && Divides(a, x) && Divides(b, Div(x, a))
    ensures Divides(a * b, x)
  {
    var q := Div(x, a);
    DividesMul(a, x);
    DividesMul(b, q);
    var r := Div(q, b);
    var ab := a * b;
    assert x == ab * r by {
      assert x == a * q && q == b * r;
    }
    DivMul(ab, r);
  }
}

=== FILE: bits.dfy ===
/** Bit-level model of the 32-bit words the packers build.

    A word is the bit pattern of a torch int32 value, least significant bit first.
    Shifting left drops the bits pushed past position 31 (two's-complement wrap-around),
    `|` is bitwise, and the arithmetic right shift copies the sign bit. */
module Bits {

  import opened Base

  /** A quantized weight before packing: a torch uint8 entry. */
  type Code = c: nat | c < 256

  /** The bit pattern of one int32 entry, bit 0 first. */
  type Word = w: seq<bool> | |w| == 32 witness seq(32, i => false)

  /** k clear bits. */
  function Zeros(k: nat): (z: seq<bool>)
    ensures |z| == k
  {
    seq(k, i => false)
  }

  /** k copies of bit b. */
  function Copies(b: bool, k: nat): (z: seq<bool>)
    ensures |z| == k
  {
    seq(k, i => b)
  }

  /** The all-clear word, as `torch.zeros(..., dtype=torch.int32)` holds. */
  function Zero(): Word
  {
    Zeros(32)
  }

  function Pow2(k: nat): (p: nat)
    ensures p >= 1
  {
    if k == 0 then 1 else 2 * Pow2(k - 1)
  }

  /** The k low bits of v, least significant first. */
  function BitsOf(v: nat, k: nat): (bs: seq<bool>)
    ensures |bs| == k
  {
    if k == 0 then [] else [v % 2 == 1] + BitsOf(v / 2, k - 1)
  }

  /** The unsigned value of bits i .. j - 1 of bs, bit i least significant. */
  function ValueIn(bs: seq<bool>, i: nat, j: nat): (v: nat)
    requires i <= j <= |bs|
    ensures v < Pow2(j - i)
    decreases j - i
  {
    if i == j then 0 else (if bs[i] then 1 else 0) + 2 * ValueIn(bs, i + 1, j)
  }

  /** The unsigned value of a bit pattern given least significant bit first. */
  function Value(bs: seq<bool>): (v: nat)
    ensures v < Pow2(|bs|)
  {
    ValueIn(bs, 0, |bs|)
  }

  /** The widths the packers accept: 32 // n codes share one word. */
  predicate Supported(n: nat) { n == 1 || n == 2 || n == 4 || n == 8 }

  /** `32 // nbits`, the number of codes per word. */
  function Step(n: nat): (k: nat)
    requires Supported(n)
    ensures k * n == 32 && k >= 4
  {
    if n == 1 then 32 else if n == 2 then 16 else if n == 4 then 8 else 4
  }

  /** The code is representable in n bits, i.e. `c & (2**n - 1) == c`. */
  predicate Fits(c: Code, n: nat) { c < Pow2(n) }

  predicate AllFit(cs: seq<Code>, n: nat) { forall i :: 0 <= i < |cs| ==> Fits(cs[i], n) }

  /** `int32(c) << s`: the eight bits of the code moved up by s, bits past 31 dropped. */
  function Shl(c: Code, s: nat): (w: Word)
  {
    (Zeros(s) + BitsOf(c, 8) + Zeros(32))[..32]
  }

  /** Bitwise `|` of two words. */
  function Or(a: Word, b: Word): (r: Word)
  {
    OrFrom(a, b, 0)
  }

  /** Bitwise `|` of positions k and up. */
  function OrFrom(a: seq<bool>, b: seq<bool>, k: nat): (r: seq<bool>)
    requires |a| == |b| && k <= |a|
    ensures |r| == |a| - k
    decreases |a| - k
  {
    if k == |a| then [] else [a[k] || b[k]] + OrFrom(a, b, k + 1)
  }

  /** `(w >> s) & (2**n - 1)` with a logical shift, read back as an unsigned code. */
  function Field(w: Word, s: nat, n: nat): (c: Code)
    requires Supported(n) && s + n <= 32
    ensures Fits(c, n)
  {
    Pow2Le(n, 8);
    ValueIn(w, s, s + n)
  }

  /** Arithmetic right shift of an int32: vacated high bits copy the sign bit. */
  function Sar(w: Word, s: nat): (r: Word)
    requires s < 32
  {
    w[s..] + Copies(w[31], s)
  }

  /** `(w >> s) & (2**n - 1)` on int32 with torch's arithmetic `>>`, stored as uint8. */
  function SarField(w: Word, s: nat, n: nat): (c: Code)
    requires Supported(n) && s < 32
    ensures Fits(c, n)
  {
    Pow2Le(n, 8);
    ValueIn(Sar(w, s), 0, n)
  }

  // ---------------------------------------------------------------------------------
  // Shift schedules.  `Down(n, s, k)`: k codes, the first at shift s, each next one
  // n bits lower, the last at shift 0 (the CUDA loop, shift = 32 - n, 32 - 2n, ...).
  // `Up(n, s, k)`: the first at shift s, each next n bits higher, the last at 32 - n
  // (the Triton loop, shift = 0, n, 2n, ...).
  // ---------------------------------------------------------------------------------

  predicate Down(n: nat, s: nat, k: nat)
    decreases k
  {
    k >= 1 && s + n <= 32 && if k == 1 then s == 0 else s >= n && Down(n, s - n, k - 1)
  }

  predicate Up(n: nat, s: nat, k: nat)
    decreases k
  {
    k >= 1 && s + n <= 32 && if k == 1 then s + n == 32 else Up(n, s + n, k - 1)
  }

  /** Codes packed most significant first: `cs[0] << s | cs[1] << (s - n) | ...`. */
  function WordMsb(n: nat, cs: seq<Code>, s: nat): Word
    requires Down(n, s, |cs|)
    decreases |cs|
  {
    Or(Shl(cs[0], s), if |cs| == 1 then Zero() else WordMsb(n, cs[1..], s - n))
  }

  /** Codes packed least significant first: `cs[0] << s | cs[1] << (s + n) | ...`. */
  function WordLsb(n: nat, cs: seq<Code>, s: nat): Word
    requires Up(n, s, |cs|)
    decreases |cs|
  {
    Or(Shl(cs[0], s), if |cs| == 1 then Zero() else WordLsb(n, cs[1..], s + n))
  }

  /** The fields below bit j read with the arithmetic shift, top field first:
      `(w >> (j - n)) & mask`, `(w >> (j - 2n)) & mask`, ..., down to shift 0 or above. */
  function UnpackMsb(n: nat, w: Word, j: nat): (cs: seq<Code>)
    requires Supported(n) && j <= 32
    ensures |cs| == Div(j, n) && AllFit(cs, n)
    decreases j
  {
    if j < n then [] else [SarField(w, j - n, n)] + UnpackMsb(n, w, j - n)
  }

  /** The fields from bit i up read with a logical shift, bottom field first. */
  function UnpackLsb(n: nat, w: Word, i: nat): (cs: seq<Code>)
    requires Supported(n) && i <= 32
    ensures |cs| == Div(32 - i, n) && AllFit(cs, n)
    decreases 32 - i
  {
    if 32 - i < n then [] else [Field(w, i, n)] + UnpackLsb(n, w, i + n)
  }

  /** A whole word of `Step(n)` codes, first code in the top bits (CUDA layout). */
  function PackMsb(n: nat, cs: seq<Code>): Word
    requires Supported(n) && |cs| == Step(n)
  {
    DownFull(n);
    WordMsb(n, cs, 32 - n)
  }

  /** A whole word of `Step(n)` codes, first code in the low bits (Triton layout). */
  function PackLsb(n: nat, cs: seq<Code>): Word
    requires Supported(n) && |cs| == Step(n)
  {
    UpFull(n);
    WordLsb(n, cs, 0)
  }

  /** The `Step(n)` fields of a word, top field first (CUDA layout). */
  function UnpackWordMsb(n: nat, w: Word): (cs: seq<Code>)
    requires Supported(n)
    ensures |cs| == Step(n) && AllFit(cs, n)
  {
    WholeWord(n);
    UnpackMsb(n, w, 32)
  }

  /** The `Step(n)` fields of a word, bottom field first (Triton layout). */
  function UnpackWordLsb(n: nat, w: Word): (cs: seq<Code>)
    requires Supported(n)
    ensures |cs| == Step(n) && AllFit(cs, n)
  {
    WholeWord(n);
    UnpackLsb(n, w, 0)
  }

  // ---------------------------------------------------------------------------------
  // Reference layouts: a word as the concatenation of n-bit blocks
  // ---------------------------------------------------------------------------------

  /** Blocks most significant first: the later codes' blocks lie below the first code's. */
  function BlocksMsb(n: nat, cs: seq<Code>): seq<bool>
  {
    if cs == [] then [] else BlocksMsb(n, cs[1..]) + BitsOf(cs[0], n)
  }

  /** Blocks least significant first: the first code's block is the lowest. */
  function BlocksLsb(n: nat, cs: seq<Code>): seq<bool>
  {
    if cs == [] then [] else BitsOf(cs[0], n) + BlocksLsb(n, cs[1..])
  }

  /** The n-bit blocks of bs below position j, the top block first. */
  function ChunksMsbTo(n: nat, bs: seq<bool>, j: nat): seq<Code>
    requires Supported(n) && j <= |bs|
    decreases j
  {
    Pow2Le(n, 8);
    if j < n then [] else [ValueIn(bs, j - n, j)] + ChunksMsbTo(n, bs, j - n)
  }

  /** The n-bit blocks of bs from position i up, the bottom block first. */
  function ChunksLsbFrom(n: nat, bs: seq<bool>, i: nat): seq<Code>
    requires Supported(n) && i <= |bs|
    decreases |bs| - i
  {
    Pow2Le(n, 8);
    if |bs| - i < n then [] else [ValueIn(bs, i, i + n)] + ChunksLsbFrom(n, bs, i + n)
  }

  // ---------------------------------------------------------------------------------
  // Arithmetic on bit patterns
  // ---------------------------------------------------------------------------------

  lemma {:induction false} Pow2Le(a: nat, b: nat)
    requires a <= b
    ensures Pow2(a) <= Pow2(b)
    decreases b
  {
    if a < b {
      Pow2Le(a, b - 1);
    }
  }

  /** Bits after the end of a do not change a value read inside a. */
  lemma {:induction false} ValueInLeft(a: seq<bool>, t: seq<bool>, i: nat, j: nat)
    requires i <= j <= |a|
    ensures ValueIn(a + t, i, j) == ValueIn(a, i, j)
    decreases j - i
  {
    if i < j {
      ValueInLeft(a, t, i + 1, j);
    }
  }

  /** Bits before the start of t only shift the positions of a value read inside t. */
  lemma {:induction false} ValueInRight(p: seq<bool>, t: seq<bool>, i: nat, j: nat)
    requires i <= j <= |t|
    ensures ValueIn(p + t, |p| + i, |p| + j) == ValueIn(t, i, j)
    decreases j - i
  {
    if i < j {
      ValueInRight(p, t, i + 1, j);
    }
  }

  lemma {:induction false} ValueInSlice(bs: seq<bool>, i: nat, j: nat)
    requires i <= j <= |bs|
    ensures ValueIn(bs, i, j) == Value(bs[i..j])
  {
    var mid := bs[i..j];
    assert bs == bs[..i] + (mid + bs[j..]);
    ValueInRight(bs[..i], mid + bs[j..], 0, j - i);
    ValueInLeft(mid, bs[j..], 0, j - i);
  }

  /** The least significant bit first, then the rest at double weight. */
  lemma {:induction false} ValueCons(bs: seq<bool>)
    requires bs != []
    ensures Value(bs) == (if bs[0] then 1 else 0) + 2 * Value(bs[1..])
  {
    ValueInSlice(bs, 1, |bs|);
    assert bs[1..|bs|] == bs[1..];
  }

  lemma {:induction false} ValueOfBits(v: nat, k: nat)
    requires v < Pow2(k)
    ensures Value(BitsOf(v, k)) == v
    decreases k
  {
    if k > 0 {
      var bs := BitsOf(v, k);
      assert bs[1..] == BitsOf(v / 2, k - 1);
      ValueCons(bs);
      ValueOfBits(v / 2, k - 1);
    }
  }

  /** Reading bits i .. j - 1 as a number and writing it back gives the same bits. */
  lemma {:induction false} BitsOfValueIn(bs: seq<bool>, i: nat, j: nat)
    requires i <= j <= |bs|
    ensures BitsOf(ValueIn(bs, i, j), j - i) == bs[i..j]
    decreases j - i
  {
    if i < j {
      var v := ValueIn(bs, i, j);
      assert v % 2 == 1 <==> bs[i];
      assert v / 2 == ValueIn(bs, i + 1, j);
      BitsOfValueIn(bs, i + 1, j);
      assert bs[i..j] == [bs[i]] + bs[i + 1..j];
    }
  }

  lemma {:induction false} SliceJoin(bs: seq<bool>, i: nat, j: nat, k: nat)
    requires i <= j <= k <= |bs|
    ensures bs[i..j] + bs[j..k] == bs[i..k]
  {
  }

  /** The low j of the k low bits are the j low bits. */
  lemma {:induction false} BitsPrefix(v: nat, k: nat, j: nat)
    requires j <= k
    ensures BitsOf(v, k)[..j] == BitsOf(v, j)
    decreases k
  {
    if j > 0 {
      BitsPrefix(v / 2, k - 1, j - 1);
    }
  }

  /** A value below 2**j has no bit set at position j or higher. */
  lemma {:induction false} BitsHigh(v: nat, k: nat, j: nat, i: nat)
    requires v < Pow2(j) && j <= i < k
    ensures !BitsOf(v, k)[i]
    decreases k
  {
    if j == 0 {
      assert v == 0;
      ZeroBits(k, i);
    } else {
      BitsHigh(v / 2, k - 1, j - 1, i - 1);
    }
  }

  lemma {:induction false} ZeroBits(k: nat, i: nat)
    requires i < k
    ensures !BitsOf(0, k)[i]
    decreases k
  {
    if i > 0 {
      ZeroBits(k - 1, i - 1);
    }
  }

  // ---------------------------------------------------------------------------------
  // Single bits of the word operations
  // ---------------------------------------------------------------------------------

  lemma {:induction false} OrFromAt(a: seq<bool>, b: seq<bool>, k: nat, i: nat)
    requires |a| == |b| && k <= i < |a|
    ensures OrFrom(a, b, k)[i - k] == (a[i] || b[i])
    decreases i - k
  {
    if k < i {
      OrFromAt(a, b, k + 1, i);
    }
  }

  lemma {:induction false} OrAt(a: Word, b: Word, i: nat)
    requires i < 32
    ensures Or(a, b)[i] == (a[i] || b[i])
  {
    OrFromAt(a, b, 0, i);
  }

  lemma {:induction false} ShlAt(c: Code, s: nat, i: nat)
    requires i < 32
    ensures Shl(c, s)[i] == (s <= i < s + 8 && BitsOf(c, 8)[i - s])
  {
    var b := BitsOf(c, 8);
    var z := Zeros(s) + b + Zeros(32);
    assert Shl(c, s)[i] == z[i];
    if i < s {
      assert z[i] == Zeros(s)[i];
    } else if i < s + 8 {
      assert z[i] == b[i - s];
    } else {
      assert z[i] == Zeros(32)[i - s - 8];
    }
  }

  /** A code that fits in n bits only sets bits s .. s + n - 1 of its shifted word. */
  lemma {:induction false} ShlOutside(c: Code, s: nat, n: nat, i: nat)
    requires Fits(c, n) && n <= 8 && i < 32 && !(s <= i < s + n)
    ensures !Shl(c, s)[i]
  {
    ShlAt(c, s, i);
    if s <= i < s + 8 {
      assert n <= i - s;
      BitsHigh(c, 8, n, i - s);
    }
  }

  /** Bit i of a fitting code OR-ed just above `lower`, against the appended block. */
  lemma {:induction false} OrShlBelowAt(c: Code, s: nat, n: nat, lower: seq<bool>, i: nat)
    requires Supported(n) && Fits(c, n) && s + n <= 32 && |lower| == s && i < 32
    ensures Or(Shl(c, s), lower + Zeros(32 - s))[i] == (lower + BitsOf(c, n) + Zeros(32 - s - n))[i]
  {
    var rest := lower + Zeros(32 - s);
    OrAt(Shl(c, s), rest, i);
    Concat3At(lower, BitsOf(c, n), Zeros(32 - s - n), i);
    if i < s {
      ShlOutside(c, s, n, i);
    } else if i < s + n {
      ShlInside(c, s, n, i);
    } else {
      ShlOutside(c, s, n, i);
    }
  }

  /** Indexing into three concatenated sequences. */
  lemma {:induction false} Concat3At(x: seq<bool>, y: seq<bool>, z: seq<bool>, i: nat)
    requires i < |x| + |y| + |z|
    ensures (x + y + z)[i] == if i < |x| then x[i] else if i < |x| + |y| then y[i - |x|] else z[i - |x| - |y|]
  {
  }

  /** Inside its field a shifted code shows the bits of its block. */
  lemma {:induction false} ShlInside(c: Code, s: nat, n: nat, i: nat)
    requires n <= 8 && s <= i < s + n && i < 32
    ensures Shl(c, s)[i] == BitsOf(c, n)[i - s]
  {
    ShlAt(c, s, i);
    BitsPrefix(c, 8, n);
    assert BitsOf(c, 8)[i - s] == BitsOf(c, 8)[..n][i - s];
  }

  /** OR-ing a fitting code into the clear bits just above `lower` appends its block. */
  lemma {:induction false} OrShlBelow(c: Code, s: nat, n: nat, lower: seq<bool>)
    requires Supported(n) && Fits(c, n) && s + n <= 32 && |lower| == s
    ensures Or(Shl(c, s), lower + Zeros(32 - s)) == lower + BitsOf(c, n) + Zeros(32 - s - n)
  {
    var a := Or(Shl(c, s), lower + Zeros(32 - s));
    var b := lower + BitsOf(c, n) + Zeros(32 - s - n);
    forall i | 0 <= i < 32
      ensures a[i] == b[i]
    {
      OrShlBelowAt(c, s, n, lower, i);
    }
  }

  /** Bit i of a fitting code OR-ed just below `upper`, against the prepended block. */
  lemma {:induction false} OrShlAboveAt(c: Code, s: nat, n: nat, upper: seq<bool>, i: nat)
    requires Supported(n) && Fits(c, n) && s + n <= 32 && |upper| == 32 - s - n && i < 32
    ensures Or(Shl(c, s), Zeros(s + n) + upper)[i] == (Zeros(s) + BitsOf(c, n) + upper)[i]
  {
    var rest := Zeros(s + n) + upper;
    OrAt(Shl(c, s), rest, i);
    Concat3At(Zeros(s), BitsOf(c, n), upper, i);
    if i < s {
      ShlOutside(c, s, n, i);
    } else if i < s + n {
      ShlInside(c, s, n, i);
    } else {
      ShlOutside(c, s, n, i);
    }
  }

  /** OR-ing a fitting code into the clear bits just below `upper` prepends its block. */
  lemma {:induction false} OrShlAbove(c: Code, s: nat, n: nat, upper: seq<bool>)
    requires Supported(n) && Fits(c, n) && s + n <= 32 && |upper| == 32 - s - n
    ensures Or(Shl(c, s), Zeros(s + n) + upper) == Zeros(s) + BitsOf(c, n) + upper
  {
    var a := Or(Shl(c, s), Zeros(s + n) + upper);
    var b := Zeros(s) + BitsOf(c, n) + upper;
    forall i | 0 <= i < 32
      ensures a[i] == b[i]
    {
      OrShlAboveAt(c, s, n, upper, i);
    }
  }

  /** Under the mask the arithmetic shift reads the same field as the logical one. */
  lemma {:induction false} SarFieldIsField(w: Word, s: nat, n: nat)
    requires Supported(n) && s + n <= 32
    ensures SarField(w, s, n) == Field(w, s, n)
  {
    ValueInLeft(w[s..], Copies(w[31], s), 0, n);
    assert w == w[..s] + w[s..];
    ValueInRight(w[..s], w[s..], 0, n);
  }

  // ---------------------------------------------------------------------------------
  // Schedules
  // ---------------------------------------------------------------------------------

  lemma {:induction false} DownFrom(n: nat, k: nat)
    requires Supported(n) && 1 <= k && n * k <= 32
    ensures Down(n, n * (k - 1), k)
    decreases k
  {
    if k > 1 {
      DownFrom(n, k - 1);
      assert n * (k - 1) - n == n * (k - 2);
    }
  }

  lemma {:induction false} UpFrom(n: nat, k: nat)
    requires Supported(n) && 1 <= k && n * k <= 32
    ensures Up(n, 32 - n * k, k)
    decreases k
  {
    if k > 1 {
      UpFrom(n, k - 1);
      assert 32 - n * k + n == 32 - n * (k - 1);
    }
  }

  /** The CUDA loop's shifts 32 - n, 32 - 2n, ..., 0 cover one word. */
  lemma {:induction false} DownFull(n: nat)
    requires Supported(n)
    ensures Down(n, 32 - n, Step(n))
  {
    DownFrom(n, Step(n));
  }

  /** The Triton loop's shifts 0, n, ..., 32 - n cover one word. */
  lemma {:induction false} UpFull(n: nat)
    requires Supported(n)
    ensures Up(n, 0, Step(n))
  {
    UpFrom(n, Step(n));
  }

  /** A word holds exactly `Step(n)` fields of n bits. */
  lemma {:induction false} WholeWord(n: nat)
    requires Supported(n)
    ensures Divides(n, 32) && Div(32, n) == Step(n)
  {
    DivMul(n, Step(n));
  }

  lemma {:induction false} AllFitTail(cs: seq<Code>, n: nat)
    requires |cs| > 0 && AllFit(cs, n)
    ensures AllFit(cs[1..], n)
  {
    forall i | 0 <= i < |cs| - 1
      ensures Fits(cs[1..][i], n)
    {
      assert cs[1..][i] == cs[i + 1];
    }
  }

  lemma {:induction false} ConcatAssoc(a: seq<bool>, b: seq<bool>, c: seq<bool>)
    ensures a + (b + c) == a + b + c
  {
  }

  lemma {:induction false} BlocksMsbCons(n: nat, c: Code, rest: seq<Code>)
    ensures BlocksMsb(n, [c] + rest) == BlocksMsb(n, rest) + BitsOf(c, n)
  {
    assert ([c] + rest)[1..] == rest;
  }

  lemma {:induction false} BlocksLsbCons(n: nat, c: Code, rest: seq<Code>)
    ensures BlocksLsb(n, [c] + rest) == BitsOf(c, n) + BlocksLsb(n, rest)
  {
    assert ([c] + rest)[1..] == rest;
  }

  lemma {:induction false} BlocksMsbLen(n: nat, cs: seq<Code>, s: nat)
    requires Down(n, s, |cs|)
    ensures |BlocksMsb(n, cs)| == s + n
    decreases |cs|
  {
    if |cs| > 1 {
      BlocksMsbLen(n, cs[1..], s - n);
    }
  }

  lemma {:induction false} BlocksLsbLen(n: nat, cs: seq<Code>, s: nat)
    requires Up(n, s, |cs|)
    ensures |BlocksLsb(n, cs)| == 32 - s
    decreases |cs|
  {
    if |cs| > 1 {
      BlocksLsbLen(n, cs[1..], s + n);
    }
  }

  // ---------------------------------------------------------------------------------
  // The shift-and-OR loops build the reference layouts
  // ---------------------------------------------------------------------------------

  /** Packing downwards from shift s fills the low s + n bits with the blocks, top clear. */
  lemma {:induction false} WordMsbBlocks(n: nat, cs: seq<Code>, s: nat)
    requires Supported(n) && Down(n, s, |cs|) && AllFit(cs, n)
    ensures WordMsb(n, cs, s) == BlocksMsb(n, cs) + Zeros(32 - s - n)
    decreases |cs|
  {
    var lower := BlocksMsb(n, cs[1..]);
    var below := if |cs| == 1 then Zero() else WordMsb(n, cs[1..], s - n);
    assert WordMsb(n, cs, s) == Or(Shl(cs[0], s), below);
    assert BlocksMsb(n, cs) == lower + BitsOf(cs[0], n);
    assert Fits(cs[0], n);
    if |cs| == 1 {
      assert lower == [];
      assert below == lower + Zeros(32 - s);
    } else {
      AllFitTail(cs, n);
      WordMsbBlocks(n, cs[1..], s - n);
      BlocksMsbLen(n, cs[1..], s - n);
      assert 32 - (s - n) - n == 32 - s;
      assert below == lower + Zeros(32 - s);
    }
    OrShlBelow(cs[0], s, n, lower);
  }

  /** Packing upwards from shift s fills the bits from s up with the blocks, bottom clear. */
  lemma {:induction false} WordLsbBlocks(n: nat, cs: seq<Code>, s: nat)
    requires Supported(n) && Up(n, s, |cs|) && AllFit(cs, n)
    ensures WordLsb(n, cs, s) == Zeros(s) + BlocksLsb(n, cs)
    decreases |cs|
  {
    var upper := BlocksLsb(n, cs[1..]);
    assert Fits(cs[0], n);
    if |cs| == 1 {
      assert upper == [];
      assert Zero() == Zeros(s + n) + upper;
    } else {
      AllFitTail(cs, n);
      WordLsbBlocks(n, cs[1..], s + n);
      BlocksLsbLen(n, cs[1..], s + n);
    }
    OrShlAbove(cs[0], s, n, upper);
    ConcatAssoc(Zeros(s), BitsOf(cs[0], n), upper);
  }

  /** Reading downwards from bit j splits the bits below j into blocks. */
  lemma {:induction false} UnpackMsbChunks(n: nat, w: Word, j: nat)
    requires Supported(n) && j <= 32
    ensures UnpackMsb(n, w, j) == ChunksMsbTo(n, w, j)
    decreases j
  {
    if j >= n {
      SarFieldIsField(w, j - n, n);
      UnpackMsbChunks(n, w, j - n);
    }
  }

  /** Reading upwards from bit i splits the bits from i up into blocks. */
  lemma {:induction false} UnpackLsbChunks(n: nat, w: Word, i: nat)
    requires Supported(n) && i <= 32
    ensures UnpackLsb(n, w, i) == ChunksLsbFrom(n, w, i)
    decreases 32 - i
  {
    if 32 - i >= n {
      UnpackLsbChunks(n, w, i + n);
    }
  }

  // ---------------------------------------------------------------------------------
  // Blocks and chunks are inverse
  // ---------------------------------------------------------------------------------

  /** Bits above position j do not matter to the chunks below it. */
  lemma {:induction false} ChunksMsbToPrefix(n: nat, a: seq<bool>, t: seq<bool>, j: nat)
    requires Supported(n) && j <= |a|
    ensures ChunksMsbTo(n, a + t, j) == ChunksMsbTo(n, a, j)
    decreases j
  {
    if j >= n {
      ValueInLeft(a, t, j - n, j);
      ChunksMsbToPrefix(n, a, t, j - n);
    }
  }

  /** Bits below t only shift the positions of the chunks read inside t. */
  lemma {:induction false} ChunksLsbFromSuffix(n: nat, p: seq<bool>, t: seq<bool>, i: nat)
    requires Supported(n) && i <= |t|
    ensures ChunksLsbFrom(n, p + t, |p| + i) == ChunksLsbFrom(n, t, i)
    decreases |t| - i
  {
    if |t| - i >= n {
      ValueInRight(p, t, i, i + n);
      ChunksLsbFromSuffix(n, p, t, i + n);
    }
  }

  lemma {:induction false} ChunksOfBlocksMsb(n: nat, cs: seq<Code>)
    requires Supported(n) && AllFit(cs, n)
    ensures ChunksMsbTo(n, BlocksMsb(n, cs), |BlocksMsb(n, cs)|) == cs
    decreases |cs|
  {
    if cs != [] {
      var lower := BlocksMsb(n, cs[1..]);
      var b := BitsOf(cs[0], n);
      assert BlocksMsb(n, cs) == lower + b;
      ValueInRight(lower, b, 0, n);
      assert Fits(cs[0], n);
      ValueOfBits(cs[0], n);
      ChunksMsbToPrefix(n, lower, b, |lower|);
      AllFitTail(cs, n);
      ChunksOfBlocksMsb(n, cs[1..]);
      assert [cs[0]] + cs[1..] == cs;
    }
  }

  lemma {:induction false} ChunksOfBlocksLsb(n: nat, cs: seq<Code>)
    requires Supported(n) && AllFit(cs, n)
    ensures ChunksLsbFrom(n, BlocksLsb(n, cs), 0) == cs
    decreases |cs|
  {
    if cs != [] {
      var upper := BlocksLsb(n, cs[1..]);
      var b := BitsOf(cs[0], n);
      assert BlocksLsb(n, cs) == b + upper;
      ValueInLeft(b, upper, 0, n);
      assert Fits(cs[0], n);
      ValueOfBits(cs[0], n);
      ChunksLsbFromSuffix(n, b, upper, 0);
      AllFitTail(cs, n);
      ChunksOfBlocksLsb(n, cs[1..]);
      assert [cs[0]] + cs[1..] == cs;
    }
  }

  lemma {:induction false} BlocksOfChunksMsb(n: nat, bs: seq<bool>, j: nat)
    requires Supported(n) && j <= |bs| && Divides(n, j)
    ensures BlocksMsb(n, ChunksMsbTo(n, bs, j)) == bs[..j]
    decreases j
  {
    if j >= n {
      var v := ValueIn(bs, j - n, j);
      var rest := ChunksMsbTo(n, bs, j - n);
      BlocksMsbCons(n, v, rest);
      BitsOfValueIn(bs, j - n, j);
      BlocksOfChunksMsb(n, bs, j - n);
      SliceJoin(bs, 0, j - n, j);
    }
  }

  lemma {:induction false} BlocksOfChunksLsb(n: nat, bs: seq<bool>, i: nat)
    requires Supported(n) && i <= |bs| && Divides(n, |bs| - i)
    ensures BlocksLsb(n, ChunksLsbFrom(n, bs, i)) == bs[i..]
    decreases |bs| - i
  {
    if |bs| - i >= n {
      var v := ValueIn(bs, i, i + n);
      var rest := ChunksLsbFrom(n, bs, i + n);
      BlocksLsbCons(n, v, rest);
      BitsOfValueIn(bs, i, i + n);
      BlocksOfChunksLsb(n, bs, i + n);
      SliceJoin(bs, i, i + n, |bs|);
    }
  }

  // ---------------------------------------------------------------------------------
  // Whole words
  // ---------------------------------------------------------------------------------

  /** A whole CUDA word is its blocks, top block first. */
  lemma {:induction false} PackMsbBlocks(n: nat, cs: seq<Code>)
    requires Supported(n) && |cs| == Step(n) && AllFit(cs, n)
    ensures PackMsb(n, cs) == BlocksMsb(n, cs)
  {
    DownFull(n);
    WordMsbBlocks(n, cs, 32 - n);
    assert Zeros(0) == [];
    assert BlocksMsb(n, cs) + [] == BlocksMsb(n, cs);
  }

  /** A whole Triton word is its blocks, bottom block first. */
  lemma {:induction false} PackLsbBlocks(n: nat, cs: seq<Code>)
    requires Supported(n) && |cs| == Step(n) && AllFit(cs, n)
    ensures PackLsb(n, cs) == BlocksLsb(n, cs)
  {
    UpFull(n);
    WordLsbBlocks(n, cs, 0);
    assert Zeros(0) == [];
    assert [] + BlocksLsb(n, cs) == BlocksLsb(n, cs);
  }

  /** CUDA word layout: unpacking a packed word gives back its codes. */
  lemma {:induction false} PackMsbRoundTrip(n: nat, cs: seq<Code>)
    requires Supported(n) && |cs| == Step(n) && AllFit(cs, n)
    ensures UnpackWordMsb(n, PackMsb(n, cs)) == cs
  {
    var w := PackMsb(n, cs);
    PackMsbBlocks(n, cs);
    UnpackMsbChunks(n, w, 32);
    ChunksOfBlocksMsb(n, cs);
  }

  /** CUDA word layout: every word is the packing of its own fields. */
  lemma {:induction false} PackMsbOfUnpack(n: nat, w: Word)
    requires Supported(n)
    ensures PackMsb(n, UnpackWordMsb(n, w)) == w
  {
    var cs := UnpackWordMsb(n, w);
    UnpackMsbChunks(n, w, 32);
    WholeWord(n);
    BlocksOfChunksMsb(n, w, 32);
    assert w[..32] == w;
    PackMsbBlocks(n, cs);
  }

  /** Triton word layout: unpacking a packed word gives back its codes. */
  lemma {:induction false} PackLsbRoundTrip(n: nat, cs: seq<Code>)
    requires Supported(n) && |cs| == Step(n) && AllFit(cs, n)
    ensures UnpackWordLsb(n, PackLsb(n, cs)) == cs
  {
    var w := PackLsb(n, cs);
    PackLsbBlocks(n, cs);
    UnpackLsbChunks(n, w, 0);
    ChunksOfBlocksLsb(n, cs);
  }

  /** Triton word layout: every word is the packing of its own fields. */
  lemma {:induction false} PackLsbOfUnpack(n: nat, w: Word)
    requires Supported(n)
    ensures PackLsb(n, UnpackWordLsb(n, w)) == w
  {
    var cs := UnpackWordLsb(n, w);
    UnpackLsbChunks(n, w, 0);
    WholeWord(n);
    BlocksOfChunksLsb(n, w, 0);
    assert w[0..] == w;
    PackLsbBlocks(n, cs);
  }

  // ---------------------------------------------------------------------------------
  // Where each code sits
  // ---------------------------------------------------------------------------------

  /** Field i read downwards from bit j sits at shift j - n * (i + 1). */
  lemma {:induction false} UnpackMsbAt(n: nat, w: Word, j: nat, i: nat)
    requires Supported(n) && j <= 32 && i < Div(j, n)
    ensures n * (i + 1) <= j && UnpackMsb(n, w, j)[i] == SarField(w, j - n * (i + 1), n)
    decreases i
  {
    UnpackMsbCons(n, w, j, i);
    if i > 0 {
      UnpackMsbAt(n, w, j - n, i - 1);
      assert (i - 1) + 1 == i;
      MulSucc(n, i);
      assert j - n * (i + 1) == (j - n) - n * i;
    }
  }

  /** The top field of a non-empty read, and the rest below it. */
  lemma {:induction false} UnpackMsbCons(n: nat, w: Word, j: nat, i: nat)
    requires Supported(n) && j <= 32 && i < Div(j, n)
    ensures j >= n && UnpackMsb(n, w, j) == [SarField(w, j - n, n)] + UnpackMsb(n, w, j - n)
    ensures i == 0 ==> UnpackMsb(n, w, j)[i] == SarField(w, j - n, n) && n * (i + 1) == n
    ensures i > 0 ==> i - 1 < Div(j - n, n) && UnpackMsb(n, w, j)[i] == UnpackMsb(n, w, j - n)[i - 1]
  {
    assert j >= n;
    assert Div(j, n) == 1 + Div(j - n, n);
  }

  lemma {:induction false} MulSucc(n: nat, i: nat)
    ensures n * (i + 1) == n * i + n
  {
  }

  /** Field i read upwards from bit k sits at shift k + n * i. */
  lemma {:induction false} UnpackLsbAt(n: nat, w: Word, k: nat, i: nat)
    requires Supported(n) && k <= 32 && i < Div(32 - k, n)
    ensures k + n * (i + 1) <= 32 && UnpackLsb(n, w, k)[i] == Field(w, k + n * i, n)
    decreases i
  {
    UnpackLsbCons(n, w, k, i);
    if i > 0 {
      UnpackLsbAt(n, w, k + n, i - 1);
      MulSucc(n, i - 1);
      MulSucc(n, i);
    }
  }

  /** The bottom field of a non-empty read, and the rest above it. */
  lemma {:induction false} UnpackLsbCons(n: nat, w: Word, k: nat, i: nat)
    requires Supported(n) && k <= 32 && i < Div(32 - k, n)
    ensures 32 - k >= n && UnpackLsb(n, w, k) == [Field(w, k, n)] + UnpackLsb(n, w, k + n)
    ensures i == 0 ==> UnpackLsb(n, w, k)[i] == Field(w, k, n) && n * (i + 1) == n && n * i == 0
    ensures i > 0 ==> i - 1 < Div(32 - (k + n), n) && UnpackLsb(n, w, k)[i] == UnpackLsb(n, w, k + n)[i - 1]
  {
    assert 32 - k >= n;
    assert Div(32 - k, n) == 1 + Div(32 - (k + n), n);
  }

  /** CUDA layout: code i of a word occupies bits 32 - (i + 1) * n .. 32 - i * n - 1,
      so the first code is in the top bits. */
  lemma {:induction false} PackMsbField(n: nat, cs: seq<Code>, i: nat)
    requires Supported(n) && |cs| == Step(n) && AllFit(cs, n) && i < Step(n)
    ensures n * (i + 1) <= 32 && Field(PackMsb(n, cs), 32 - n * (i + 1), n) == cs[i]
  {
    var w := PackMsb(n, cs);
    PackMsbRoundTrip(n, cs);
    WholeWord(n);
    UnpackMsbAt(n, w, 32, i);
    SarFieldIsField(w, 32 - n * (i + 1), n);
  }

  /** Triton layout: code i of a word occupies bits i * n .. (i + 1) * n - 1,
      so the first code is in the low bits. */
  lemma {:induction false} PackLsbField(n: nat, cs: seq<Code>, i: nat)
    requires Supported(n) && |cs| == Step(n) && AllFit(cs, n) && i < Step(n)
    ensures n * (i + 1) <= 32 && Field(PackLsb(n, cs), n * i, n) == cs[i]
  {
    var w := PackLsb(n, cs);
    PackLsbRoundTrip(n, cs);
    WholeWord(n);
    UnpackLsbAt(n, w, 0, i);
  }
}

=== FILE: config.dfy ===
/** Construction of the two layer classes: the CUDA GEMV kernel tables and the
    dtype/group-size rules of `GemLiteLinearCUDA.__init__`, and the bit-width,
    shape and dtype checks of `GemLiteLinearTriton.__init__` with its `cdiv`. */
module Config {

  import opened Base
  import Bits

  // ---------------------------------------------------------------------------------
  // CUDA backend
  // ---------------------------------------------------------------------------------

  /** The entry points of the CUDA extension, kept as names: their bodies are foreign code. */
  datatype CudaKernel =
    | GemvA16fW8iO16f | GemvA16fW4iO16f | GemvA16fW2iO16f
    | GemvA8iW8iO32i | GemvA8iW4iO32i | GemvA8iW2iO32i
  {
    /** The weight bit width in the kernel's name (`W8i`, `W4i`, `W2i`). */
    function WeightBits(): nat
    {
      match this
      case GemvA16fW8iO16f | GemvA8iW8iO32i => 8
      case GemvA16fW4iO16f | GemvA8iW4iO32i => 4
      case GemvA16fW2iO16f | GemvA8iW2iO32i => 2
    }

    /** The kernel takes FP16 activations (`A16f`) rather than INT8 ones (`A8i`). */
    predicate Fp16Input()
    {
      this.GemvA16fW8iO16f? || this.GemvA16fW4iO16f? || this.GemvA16fW2iO16f?
    }
  }

  /** `GEMLITE_GEMV_FP16_INPUT_FP16_OUTPUT[nbits]`. */
  function GemvFp16Table(nbits: nat): (r: Result<CudaKernel>)
    ensures r.Ok? <==> nbits == 2 || nbits == 4 || nbits == 8
    ensures r.Ok? ==> r.value.WeightBits() == nbits && r.value.Fp16Input()
    ensures r.Err? ==> r.error == KeyError
  {
    if nbits == 8 then Ok(GemvA16fW8iO16f)
    else if nbits == 4 then Ok(GemvA16fW4iO16f)
    else if nbits == 2 then Ok(GemvA16fW2iO16f)
    else Err(KeyError)
  }

  /** `GEMLITE_GEMV_INT8_INPUT_INT32_OUTPUT[nbits]`. */
  function GemvInt8Table(nbits: nat): (r: Result<CudaKernel>)
    ensures r.Ok? <==> nbits == 2 || nbits == 4 || nbits == 8
    ensures r.Ok? ==> r.value.WeightBits() == nbits && !r.value.Fp16Input()
    ensures r.Err? ==> r.error == KeyError
  {
    if nbits == 8 then Ok(GemvA8iW8iO32i)
    else if nbits == 4 then Ok(GemvA8iW4iO32i)
    else if nbits == 2 then Ok(GemvA8iW2iO32i)
    else Err(KeyError)
  }

  /** `(in_features, out_features, W_nbits, group_size)` with the group size as passed,
      `None` included. */
  datatype Signature = Signature(inFeatures: nat, outFeatures: nat, nbits: nat, groupSize: Option<nat>)

  /** The attributes `GemLiteLinearCUDA.__init__` sets. */
  datatype CudaLayer = CudaLayer(
    inFeatures: nat,
    outFeatures: nat,
    nbits: nat,
    groupSize: nat,        // `group_size`, or `in_features` when None
    signature: Signature,
    inputDtype: DType,
    outputDtype: DType,
    kernel: CudaKernel,
    zeroIsTensor: bool,
    hasScales: bool)

  /** What every constructed CUDA layer satisfies. */
  predicate CudaValid(l: CudaLayer)
  {
    (l.nbits == 2 || l.nbits == 4 || l.nbits == 8) && l.hasScales == l.zeroIsTensor
  }

  /** `GemLiteLinearCUDA(W_nbits, group_size, in_features, out_features, input_dtype, output_dtype)`.
      Exactly two configurations construct: FP16 in and out with a group size dividing
      in * out (tensor zeros, scales), and INT8 in with INT32 out with one group over the
      whole weight (scalar zero, no scales); both only for 2, 4 or 8 bits. The FP16 branch
      computes `in * out % group_size` with the group size as passed, so `None` raises
      TypeError and 0 raises ZeroDivisionError. */
  function CudaInit(nbits: nat, groupSize: Option<nat>, inF: nat, outF: nat, inDt: DType, outDt: DType): (r: Result<CudaLayer>)
    ensures r.Ok? <==>
      (nbits == 2 || nbits == 4 || nbits == 8) &&
      ((inDt == FP16 && outDt == FP16 && groupSize.Some? && groupSize.value > 0 && Divides(groupSize.value, inF * outF)) ||
       (inDt == INT8 && outDt == INT32 && groupSize == Some(inF * outF)))
    ensures r.Ok? ==> CudaValid(r.value) && (r.value.hasScales <==> inDt == FP16)
    ensures r.Ok? ==> r.value.kernel.WeightBits() == nbits && (r.value.kernel.Fp16Input() <==> inDt == FP16)
    ensures r.Ok? ==> r.value.signature == Signature(inF, outF, nbits, groupSize)
    ensures r.Ok? ==> r.value.groupSize == (if groupSize.Some? then groupSize.value else inF)
    ensures !((inDt == FP16 && outDt == FP16) || (inDt == INT8 && outDt == INT32)) ==> r == Err(NotImplemented)
    ensures ((inDt == FP16 && outDt == FP16) || (inDt == INT8 && outDt == INT32)) && !(nbits == 2 || nbits == 4 || nbits == 8) ==>
      r == Err(KeyError)
    ensures inDt == FP16 && outDt == FP16 && (nbits == 2 || nbits == 4 || nbits == 8) && groupSize.None? ==> r == Err(TypeError)
    ensures inDt == FP16 && outDt == FP16 && (nbits == 2 || nbits == 4 || nbits == 8) && groupSize == Some(0) ==> r == Err(ZeroDivision)
    ensures (inDt == FP16 && outDt == FP16 && (nbits == 2 || nbits == 4 || nbits == 8) && groupSize.Some? &&
             groupSize.value > 0 && !Divides(groupSize.value, inF * outF)) ==> r == Err(NotImplemented)
    ensures inDt == INT8 && outDt == INT32 && (nbits == 2 || nbits == 4 || nbits == 8) && groupSize != Some(inF * outF) ==>
      r == Err(NotImplemented)
  {
    var resolved := if groupSize.Some? then groupSize.value else inF;
    var sig := Signature(inF, outF, nbits, groupSize);
    if inDt == FP16 && outDt == FP16 then
      var k :- GemvFp16Table(nbits);
      if groupSize.None? then Err(TypeError)
      else if groupSize.value == 0 then Err(ZeroDivision)
      else if Mod(inF * outF, groupSize.value) == 0 then
        Ok(CudaLayer(inF, outF, nbits, resolved, sig, inDt, outDt, k, true, true))
      else Err(NotImplemented)
    else if inDt == INT8 && outDt == INT32 then
      var k :- GemvInt8Table(nbits);
      if groupSize == Some(inF * outF) then
        Ok(CudaLayer(inF, outF, nbits, resolved, sig, inDt, outDt, k, false, false))
      else Err(NotImplemented)
    else Err(NotImplemented)
  }

  // ---------------------------------------------------------------------------------
  // Triton backend
  // ---------------------------------------------------------------------------------

  /** The two Triton kernels, kept as names. */
  datatype TritonKernel = GemmA16fWnO16f | GemvA16fWnO16f {

    /** The kernel's `matmul_type` attribute. */
    function MatmulType(): string
    {
      match this
      case GemmA16fWnO16f => "GEMM"
      case GemvA16fWnO16f => "GEMV"
    }
  }

  /** `compute_dtype`: torch.float16 or torch.bfloat16. */
  datatype Compute = Float16 | BFloat16

  /** `acc_dtype`: tl.float16 or tl.float32. */
  datatype Acc = AccFloat16 | AccFloat32

  /** The attributes `GemLiteLinearTriton.__init__` sets. */
  datatype TritonLayer = TritonLayer(
    inFeatures: nat,
    outFeatures: nat,
    nbits: nat,
    groupSize: nat,         // `group_size`, or `in_features` when None
    signature: Signature,
    inputDtype: DType,
    outputDtype: DType,
    kernels: seq<TritonKernel>,
    compute: Compute,
    acc: Acc,
    numGroups: nat,         // `cdiv(in_features, group_size)`
    unpackMask: nat,        // `2**W_nbits - 1`
    elementsPerSample: nat) // `32 // W_nbits`

  /** `cdiv(a, b) = (a + b - 1) // b`; division by zero raises. */
  function Cdiv(a: nat, b: nat): (r: Result<nat>)
  {
    if b == 0 then Err(ZeroDivision) else Ok(Div(a + b - 1, b))
  }

  /** `cdiv` is the ceiling of a / b: the least q with q * b >= a. */
  lemma {:induction false} CdivIsCeiling(a: nat, b: nat)
    requires b > 0
    ensures Cdiv(a, b).Ok?
    ensures b * Cdiv(a, b).value >= a
    ensures Cdiv(a, b).value == 0 || b * (Cdiv(a, b).value - 1) < a
  {
    var q := Div(a + b - 1, b);
    DivMod(a + b - 1, b);
    if q > 0 {
      assert b * (q - 1) == b * q - b;
    }
  }

  /** What every constructed Triton layer satisfies. */
  predicate TritonValid(l: TritonLayer)
  {
    Bits.Supported(l.nbits) && l.inFeatures % 128 == 0 && l.outFeatures % 128 == 0 && l.groupSize > 0
  }

  /** `GemLiteLinearTriton(W_nbits, group_size, in_features, out_features, input_dtype,
      output_dtype, acc_dtype)`. It accepts exactly the supported bit widths, feature
      counts that are multiples of 128, FP16 or BF16 on both sides, and a non-zero group
      size; every rejection before `cdiv` is a NotImplementedError. */
  function TritonInit(nbits: nat, groupSize: Option<nat>, inF: nat, outF: nat, inDt: DType, outDt: DType, accDt: Option<DType>): (r: Result<TritonLayer>)
    ensures r.Ok? <==>
      Bits.Supported(nbits) && inF % 128 == 0 && outF % 128 == 0 &&
      ((inDt == FP16 && outDt == FP16) || (inDt == BF16 && outDt == BF16)) &&
      (if groupSize.Some? then groupSize.value else inF) > 0
    ensures r.Err? ==> (r.error == NotImplemented || r.error == ZeroDivision)
    ensures r.Err? ==> (r.error == ZeroDivision <==>
      Bits.Supported(nbits) && inF % 128 == 0 && outF % 128 == 0 &&
      ((inDt == FP16 && outDt == FP16) || (inDt == BF16 && outDt == BF16)))
    ensures r.Ok? ==> TritonValid(r.value)
    ensures r.Ok? ==> r.value.signature == Signature(inF, outF, nbits, groupSize)
    ensures r.Ok? ==> r.value.groupSize == (if groupSize.Some? then groupSize.value else inF)
  {
    if !(nbits in [1, 2, 4, 8]) then Err(NotImplemented)
    else if inF % 128 != 0 || outF % 128 != 0 then Err(NotImplemented)
    else
      var resolved := if groupSize.Some? then groupSize.value else inF;
      var sig := Signature(inF, outF, nbits, groupSize);
      var chosen: Option<(seq<TritonKernel>, Compute)> :=
        if inDt == FP16 && outDt == FP16 then Some(([GemmA16fWnO16f, GemvA16fWnO16f], Float16))
        else if inDt == BF16 && outDt == BF16 then Some(([GemmA16fWnO16f], BFloat16))
        else None;
      if chosen.None? then Err(NotImplemented)
      else
        var (kernels, compute) := chosen.value;
        var accChoice := if accDt.Some? then accDt.value else if compute == Float16 then FP16 else FP32;
        var acc := if accChoice == FP16 then AccFloat16 else AccFloat32;
        var numGroups :- Cdiv(inF, resolved);
        assert resolved > 0;
        Ok(TritonLayer(inF, outF, nbits, resolved, sig, inDt, outDt, kernels, compute, acc,
                       numGroups, Bits.Pow2(nbits) - 1, 32 / nbits))
  }

  /** The kernel list, compute dtype, accumulator default and group count of a constructed layer. */
  lemma {:induction false} TritonInitFields(nbits: nat, groupSize: Option<nat>, inF: nat, outF: nat, inDt: DType, outDt: DType, accDt: Option<DType>)
    requires TritonInit(nbits, groupSize, inF, outF, inDt, outDt, accDt).Ok?
    ensures var l := TritonInit(nbits, groupSize, inF, outF, inDt, outDt, accDt).value;
      (inDt == FP16 ==> l.kernels == [GemmA16fWnO16f, GemvA16fWnO16f] && l.compute == Float16) &&
      (inDt == BF16 ==> l.kernels == [GemmA16fWnO16f] && l.compute == BFloat16) &&
      (accDt.None? ==> (l.acc == AccFloat16 <==> inDt == FP16)) &&
      (accDt.Some? ==> (l.acc == AccFloat16 <==> accDt.value == FP16)) &&
      l.numGroups * l.groupSize >= inF && (l.numGroups == 0 || (l.numGroups - 1) * l.groupSize < inF) &&
      l.elementsPerSample * nbits == 32 && l.unpackMask + 1 == Bits.Pow2(nbits)
  {
    var l := TritonInit(nbits, groupSize, inF, outF, inDt, outDt, accDt).value;
    CdivIsCeiling(inF, l.groupSize);
  }
}

=== FILE: layout_a.dfy ===
/** The CUDA backend's weight layout, `GemLiteLinearCUDA.pack` and `unpack`.

    The (rows, cols) matrix of codes is padded on the right to a multiple of
    `32 // nbits` columns, flattened, and cut into tile rows of 32 entries. Each run of
    `step` consecutive tile rows becomes one row of 32 words: word t holds column t of
    the run, the first tile row's code in the top bits. The packed rows are then laid
    out again as (rows, padded_cols // step). */
module LayoutA {

  import opened Base
  import opened Bits
  import opened Matrix
  import opened Runs
  import Config

  /** The tile width `threads_per_group`, `warp_size // cols_per_warp` with 32 threads to a
      warp and one column per warp. */
  const Tile: nat := 32

  // ---------------------------------------------------------------------------------
  // Padding
  // ---------------------------------------------------------------------------------

  /** `int(step * np.ceil(cols / step) - cols)`: the columns to add to reach a multiple of step. */
  function PadAmount(cols: nat, step: nat): nat
    requires step > 0
  {
    if Mod(cols, step) == 0 then 0 else step - Mod(cols, step)
  }

  /** The padding is the least one that reaches a multiple of the step. */
  lemma {:induction false} PadAmountLeast(cols: nat, step: nat)
    requires step > 0
    ensures PadAmount(cols, step) < step
    ensures Divides(step, cols + PadAmount(cols, step))
    ensures Divides(step, cols) <==> PadAmount(cols, step) == 0
  {
    var q := Div(cols, step);
    DivMod(cols, step);
    if Mod(cols, step) != 0 {
      assert cols + PadAmount(cols, step) == step * (q + 1);
      DivMul(step, q + 1);
    }
  }

  // ---------------------------------------------------------------------------------
  // Shapes
  // ---------------------------------------------------------------------------------

  /** The column count after padding, `W_shape[1]` in `pack`. */
  function PaddedCols(n: nat, cols: nat): nat
    requires Supported(n)
  {
    cols + PadAmount(cols, Step(n))
  }

  /** The matrix padded on the right with zero codes: every row keeps the input row as
      its prefix, and the added columns hold 0. */
  function Padded(n: nat, w: seq<seq<Code>>, cols: nat): (m: seq<seq<Code>>)
    requires Supported(n) && Rect(w, cols)
    ensures |m| == |w| && Rect(m, PaddedCols(n, cols)) && |Flatten(m)| == |w| * PaddedCols(n, cols)
    ensures forall i :: 0 <= i < |w| ==> m[i][..cols] == w[i]
    ensures forall i, j :: 0 <= i < |w| && cols <= j < PaddedCols(n, cols) ==> m[i][j] == 0
  {
    var m := PadCols(w, PadAmount(cols, Step(n)), 0);
    PadColsShape(w, cols, PadAmount(cols, Step(n)), 0);
    FlattenLen(m, PaddedCols(n, cols));
    m
  }

  /** `reshape(-1, 32)` and `view(-1, 32)`: consecutive runs of 32 entries. */
  function TileRows<T>(xs: seq<T>): (m: seq<seq<T>>)
    requires Divides(Tile, |xs|)
    ensures |m| == Div(|xs|, Tile) && Rect(m, Tile)
  {
    DividesMul(Tile, |xs|);
    Reshape(xs, Div(|xs|, Tile), Tile)
  }

  lemma {:induction false} FlattenTileRows<T>(xs: seq<T>)
    requires Divides(Tile, |xs|)
    ensures Flatten(TileRows(xs)) == xs
  {
    DividesMul(Tile, |xs|);
    FlattenReshape(xs, Div(|xs|, Tile), Tile);
  }

  lemma {:induction false} TileRowsFlatten<T>(m: seq<seq<T>>)
    requires Rect(m, Tile)
    ensures Divides(Tile, |Flatten(m)|) && TileRows(Flatten(m)) == m
  {
    ReshapeFlatten(m, Tile);
    Regroup(1, Tile, |m|);
    DivMul(Tile, |m|);
  }

  /** Multiplication regrouped: a * (b * c) == b * (a * c). */
  lemma {:induction false} Regroup(a: nat, b: nat, c: nat)
    ensures a * (b * c) == b * (a * c)
  {
  }

  /** The packed row count works out: rows * (padded_cols // step) words are exactly
      the 32 words of each run of step tile rows. */
  lemma {:induction false} PackedCount(rows: nat, cp: nat, step: nat)
    requires step > 0 && Divides(step, cp) && Divides(Tile, rows * cp) && Divides(step, Div(rows * cp, Tile))
    ensures rows * Div(cp, step) == Div(Div(rows * cp, Tile), step) * Tile
  {
    var c := Div(cp, step);
    var t := Div(rows * cp, Tile);
    var g := Div(t, step);
    DividesMul(step, cp);
    DividesMul(Tile, rows * cp);
    DividesMul(step, t);
    Regroup(rows, step, c);
    Regroup(Tile, step, g);
    MulCancel(step, rows * c, Tile * g);
  }

  /** The unpacked codes fill (rows, packed_cols * step). */
  lemma {:induction false} UnpackedCount(rows: nat, pcols: nat, step: nat, t: nat)
    requires rows * pcols == Tile * t
    ensures (t * step) * Tile == rows * (pcols * step)
  {
  }

  // ---------------------------------------------------------------------------------
  // pack and unpack
  // ---------------------------------------------------------------------------------

  /** The weight half of `pack`: pad, cut into tile rows, pack runs of step tile rows
      with the first in the top bits, and lay the words out as (rows, padded_cols // step).
      Cutting no entries into rows of 32 is ambiguous and raises, as does a reshape whose
      element counts do not match. */
  function PackWords(n: nat, w: seq<seq<Code>>, cols: nat): (r: Result<seq<seq<Word>>>)
    requires Supported(n) && Rect(w, cols)
    ensures r.Err? ==> r.error == ShapeError
    ensures r.Ok? ==> |r.value| == |w| && Rect(r.value, Div(PaddedCols(n, cols), Step(n)))
  {
    var flat := Flatten(Padded(n, w, cols));
    if |flat| == 0 || !Divides(Tile, |flat|) then Err(ShapeError)
    else
      var tiles := TileRows(flat);
      if !Divides(Step(n), |tiles|) then Err(ShapeError)
      else
        var groups := PackRuns(n, TopFirst, tiles, Tile);
        FlattenLen(groups, Tile);
        PadAmountLeast(cols, Step(n));
        PackedCount(|w|, PaddedCols(n, cols), Step(n));
        Ok(Reshape(Flatten(groups), |w|, Div(PaddedCols(n, cols), Step(n))))
  }

  /** The packed matrix has some words, and they make whole rows of 32. */
  predicate Unpackable(packed: seq<seq<Word>>, pcols: nat)
  {
    0 < |packed| * pcols && Divides(Tile, |packed| * pcols)
  }

  /** `unpack` as it was evidently meant: read the packed matrix passed in, view it as
      rows of 32 words, spread each word's fields over step tile rows (field i from the
      top to tile row i of the run), and lay the codes out as (rows, packed_cols * step).
      Viewing no words as rows of 32 raises. */
  function Unpack(n: nat, packed: seq<seq<Word>>, pcols: nat): (r: Result<seq<seq<Code>>>)
    requires Supported(n) && Rect(packed, pcols)
    ensures r.Ok? <==> Unpackable(packed, pcols)
    ensures r.Err? ==> r.error == ShapeError
    ensures r.Ok? ==> |r.value| == |packed| && Rect(r.value, pcols * Step(n)) && RowsFit(r.value, n)
  {
    var flat := Flatten(packed);
    FlattenLen(packed, pcols);
    if |flat| == 0 || !Divides(Tile, |flat|) then Err(ShapeError)
    else
      var ts := UnpackRuns(n, TopFirst, TileRows(flat), Tile);
      FlattenLen(ts, Tile);
      DividesMul(Tile, |flat|);
      UnpackedCount(|packed|, pcols, Step(n), Div(|flat|, Tile));
      ReshapeFits(ts, n, |packed|, pcols * Step(n));
      Ok(Reshape(Flatten(ts), |packed|, pcols * Step(n)))
  }

  /** Reshaping codes that fit gives codes that fit. */
  lemma {:induction false} ReshapeFits(m: seq<seq<Code>>, n: nat, rows: nat, cols: nat)
    requires RowsFit(m, n) && |Flatten(m)| == rows * cols
    ensures RowsFit(Reshape(Flatten(m), rows, cols), n)
  {
    var r := Reshape(Flatten(m), rows, cols);
    forall i | 0 <= i < |r|
      ensures AllFit(r[i], n)
    {
      forall k | 0 <= k < |r[i]|
        ensures Fits(r[i][k], n)
      {
        var x := r[i][k];
        ReshapeIn(Flatten(m), rows, cols, i, x);
        FlattenIn(m, x);
        var j :| 0 <= j < |m| && x in m[j];
        assert AllFit(m[j], n);
      }
    }
  }

  /** Padding with zero codes keeps every code within n bits. */
  lemma {:induction false} PaddedFits(n: nat, w: seq<seq<Code>>, cols: nat)
    requires Supported(n) && Rect(w, cols) && RowsFit(w, n)
    ensures RowsFit(Padded(n, w, cols), n)
  {
    var m := Padded(n, w, cols);
    forall i | 0 <= i < |m|
      ensures AllFit(m[i], n)
    {
      forall k | 0 <= k < |m[i]|
        ensures Fits(m[i][k], n)
      {
        if k < cols {
          assert m[i][k] == w[i][k];
          assert AllFit(w[i], n);
        } else {
          assert m[i][k] == 0;
        }
      }
    }
  }

  /** The tile rows of a matrix of fitting codes hold fitting codes. */
  lemma {:induction false} TileRowsFit(m: seq<seq<Code>>, n: nat)
    requires RowsFit(m, n) && Divides(Tile, |Flatten(m)|)
    ensures RowsFit(TileRows(Flatten(m)), n)
  {
    DividesMul(Tile, |Flatten(m)|);
    ReshapeFits(m, n, Div(|Flatten(m)|, Tile), Tile);
  }

  // ---------------------------------------------------------------------------------
  // Properties of the whole-matrix layout
  // ---------------------------------------------------------------------------------

  /** The padded matrix has some entries and splits into whole runs of step tile rows
      of 32 codes. */
  predicate Packable(n: nat, w: seq<seq<Code>>, cols: nat)
    requires Supported(n)
  {
    0 < |w| * PaddedCols(n, cols) && Divides(Tile * Step(n), |w| * PaddedCols(n, cols))
  }

  /** `pack` succeeds exactly on packable weights. */
  lemma {:induction false} PackWordsAccepts(n: nat, w: seq<seq<Code>>, cols: nat)
    requires Supported(n) && Rect(w, cols)
    ensures PackWords(n, w, cols).Ok? <==> Packable(n, w, cols)
  {
    var flat := Flatten(Padded(n, w, cols));
    assert |flat| == |w| * PaddedCols(n, cols);
    DividesTwice(Tile, Step(n), |flat|);
    if Divides(Tile, |flat|) {
      assert |TileRows(flat)| == Div(|flat|, Tile);
    }
  }

  /** Unpacking what `pack` produced gives back the padded matrix, whose first cols
      columns are the input (see `Padded`). */
  lemma {:induction false} PackUnpack(n: nat, w: seq<seq<Code>>, cols: nat)
    requires Supported(n) && Rect(w, cols) && RowsFit(w, n) && Packable(n, w, cols)
    ensures PackWords(n, w, cols).Ok?
    ensures Unpack(n, PackWords(n, w, cols).value, Div(PaddedCols(n, cols), Step(n))) == Ok(Padded(n, w, cols))
  {
    PackWordsAccepts(n, w, cols);
    var step, cp := Step(n), PaddedCols(n, cols);
    var pc := Div(cp, step);
    var m := Padded(n, w, cols);
    var tiles := TileRows(Flatten(m));
    var groups := PackRuns(n, TopFirst, tiles, Tile);
    FlattenLen(groups, Tile);
    PadAmountLeast(cols, step);
    PackedCount(|w|, cp, step);
    var packed := PackWords(n, w, cols).value;
    assert packed == Reshape(Flatten(groups), |w|, pc);
    FlattenReshape(Flatten(groups), |w|, pc);
    TileRowsFlatten(groups);
    PaddedFits(n, w, cols);
    TileRowsFit(m, n);
    RunsRoundTrip(n, TopFirst, tiles, Tile);
    FlattenTileRows(Flatten(m));
    PackedColsTimesStep(n, cols);
    ReshapeFlatten(m, cp);
  }

  /** The packed column count times step is the padded column count. */
  lemma {:induction false} PackedColsTimesStep(n: nat, cols: nat)
    requires Supported(n)
    ensures Div(PaddedCols(n, cols), Step(n)) * Step(n) == PaddedCols(n, cols)
  {
    PadAmountLeast(cols, Step(n));
    DividesMul(Step(n), PaddedCols(n, cols));
  }

  /** The codes `unpack` produces need no padding and, flattened, are the unpacked runs
      of tile rows one after another. */
  lemma {:induction false} UnpackedCodes(n: nat, packed: seq<seq<Word>>, pcols: nat)
    requires Supported(n) && Rect(packed, pcols) && Unpack(n, packed, pcols).Ok?
    ensures var u := Unpack(n, packed, pcols).value;
      var ts := UnpackRuns(n, TopFirst, TileRows(Flatten(packed)), Tile);
      Rect(u, pcols * Step(n)) && Padded(n, u, pcols * Step(n)) == u && Flatten(u) == Flatten(ts) &&
      Div(pcols * Step(n), Step(n)) == pcols
  {
    var step := Step(n);
    var cp := pcols * step;
    var ps := TileRows(Flatten(packed));
    var ts := UnpackRuns(n, TopFirst, ps, Tile);
    FlattenLen(packed, pcols);
    FlattenLen(ts, Tile);
    DividesMul(Tile, |Flatten(packed)|);
    UnpackedCount(|packed|, pcols, step, |ps|);
    var u := Unpack(n, packed, pcols).value;
    assert u == Reshape(Flatten(ts), |packed|, cp);
    Regroup(1, step, pcols);
    DivMul(step, pcols);
    PadAmountLeast(cp, step);
    PadColsZero(u, 0);
    FlattenReshape(Flatten(ts), |packed|, cp);
  }

  /** Packing what `unpack` produced gives back the packed matrix. */
  lemma {:induction false} UnpackPack(n: nat, packed: seq<seq<Word>>, pcols: nat)
    requires Supported(n) && Rect(packed, pcols) && Unpackable(packed, pcols)
    ensures Unpack(n, packed, pcols).Ok? && PackWords(n, Unpack(n, packed, pcols).value, pcols * Step(n)) == Ok(packed)
  {
    FlattenLen(packed, pcols);
    var ps := TileRows(Flatten(packed));
    var ts := UnpackRuns(n, TopFirst, ps, Tile);
    UnpackedCodes(n, packed, pcols);
    TileRowsFlatten(ts);
    RunsInverse(n, TopFirst, ps, Tile);
    FlattenTileRows(Flatten(packed));
    FlattenLen(ts, Tile);
    ReshapeFlatten(packed, pcols);
  }

  /** The packed words, flattened, are the packed runs of tile rows one after another. */
  lemma {:induction false} PackedWords(n: nat, w: seq<seq<Code>>, cols: nat)
    requires Supported(n) && Rect(w, cols) && RowsFit(w, n) && Packable(n, w, cols)
    ensures PackWords(n, w, cols).Ok?
    ensures var flat := Flatten(Padded(n, w, cols));
      0 < |flat| && Divides(Tile, |flat|) && WholeRuns(n, TileRows(flat), Tile) && RowsFit(TileRows(flat), n) &&
      Flatten(PackWords(n, w, cols).value) == Flatten(PackRuns(n, TopFirst, TileRows(flat), Tile))
  {
    PackWordsAccepts(n, w, cols);
    var step, cp := Step(n), PaddedCols(n, cols);
    var m := Padded(n, w, cols);
    var tiles := TileRows(Flatten(m));
    var groups := PackRuns(n, TopFirst, tiles, Tile);
    FlattenLen(groups, Tile);
    PadAmountLeast(cols, step);
    PackedCount(|w|, cp, step);
    FlattenReshape(Flatten(groups), |w|, Div(cp, step));
    PaddedFits(n, w, cols);
    TileRowsFit(m, n);
  }

  /** Packing runs of tile rows, entry by entry: in word g * 32 + t of the packed runs,
      field i from the top holds entry t of tile row g * step + i. */
  lemma {:induction false} TileFieldAt(n: nat, flat: seq<Code>, g: nat, t: nat, i: nat)
    requires Divides(Tile, |flat|) && WholeRuns(n, TileRows(flat), Tile) && RowsFit(TileRows(flat), n)
    requires t < Tile && i < Step(n) && g * Tile < |Flatten(PackRuns(n, TopFirst, TileRows(flat), Tile))|
    ensures var q := Flatten(PackRuns(n, TopFirst, TileRows(flat), Tile));
      g * Tile + t < |q| && (g * Step(n) + i) * Tile + t < |flat| &&
      Field(q[g * Tile + t], FieldShift(n, TopFirst, i), n) == flat[(g * Step(n) + i) * Tile + t]
  {
    var row: nat := g * Step(n) + i;
    var tiles := TileRows(flat);
    var groups := PackRuns(n, TopFirst, tiles, Tile);
    FlattenLen(groups, Tile);
    RowOf(g, Tile, |groups|);
    FlattenAt(groups, Tile, g, t);
    PackRunsField(n, TopFirst, tiles, Tile, g, t, i);
    DividesMul(Tile, |flat|);
    ReshapeAt(flat, Div(|flat|, Tile), Tile, row, t);
  }

  /** What `pack` computes, entry by entry: in packed word g * 32 + t, field i from the
      top, at shift `32 - (i + 1) * nbits` as in `W_q[i::step] << shift`, holds tile row g * step + i,
      column t, of the padded and flattened matrix. */
  lemma {:induction false} PackWordsAt(n: nat, w: seq<seq<Code>>, cols: nat, g: nat, t: nat, i: nat)
    requires Supported(n) && Rect(w, cols) && RowsFit(w, n) && Packable(n, w, cols)
    requires t < Tile && i < Step(n) && g * Tile < |w| * Div(PaddedCols(n, cols), Step(n))
    ensures PackWords(n, w, cols).Ok?
    ensures At(g, Tile, t) < |Flatten(PackWords(n, w, cols).value)|
    ensures At(At(g, Step(n), i), Tile, t) < |Flatten(Padded(n, w, cols))|
    ensures Field(Flatten(PackWords(n, w, cols).value)[At(g, Tile, t)], FieldShift(n, TopFirst, i), n) ==
      Flatten(Padded(n, w, cols))[At(At(g, Step(n), i), Tile, t)]
  {
    PackedWords(n, w, cols);
    FlattenLen(PackWords(n, w, cols).value, Div(PaddedCols(n, cols), Step(n)));
    TileFieldAt(n, Flatten(Padded(n, w, cols)), g, t, i);
  }

  /** An entry g * cols + t below rows * cols lies in a row g below rows. */
  lemma {:induction false} RowOf(g: nat, cols: nat, rows: nat)
    requires g * cols < rows * cols
    ensures g < rows
    decreases g
  {
    if g > 0 {
      assert (g - 1) * cols == g * cols - cols;
      assert (rows - 1) * cols == rows * cols - cols;
      RowOf(g - 1, cols, rows - 1);
    }
  }

  // ---------------------------------------------------------------------------------
  // The layer's pack and unpack
  // ---------------------------------------------------------------------------------

  /** A `scales` or `zeros` argument: None, a Python scalar, or a tensor. */
  datatype Meta = Absent | Scalar(v: real) | Tensor(t: seq<seq<real>>)

  /** `torch.tensor([[v]])` for a scalar; a tensor is kept as it is. */
  function AsTensor(m: Meta): (r: Result<Meta>)
    ensures r.Ok? <==> !m.Absent?
    ensures r.Ok? ==> r.value.Tensor? && (m.Scalar? ==> r.value.t == [[m.v]]) && (m.Tensor? ==> r.value == m)
  {
    match m
    case Absent => Err(TypeError)
    case Scalar(v) => Ok(Tensor([[v]]))
    case Tensor(_) => Ok(m)
  }

  /** The attributes `pack` sets: `W_q`, `scales` and `zeros`. */
  datatype PackedA = PackedA(wq: seq<seq<Word>>, scales: Meta, zeros: Meta)

  /** `GemLiteLinearCUDA.pack(W_q, scales, zeros)`: the weight is packed first; then the
      presence of scales must match `has_scales`; with tensor zeros, scalar scales and
      zeros are wrapped as 1 x 1 tensors, otherwise the zeros may not be a tensor. The
      check that scalar-zero layers get no tensor scales cannot fire: such a layer has
      no scales, so any scales already failed the first assert. */
  function PackCuda(l: Config.CudaLayer, w: seq<seq<Code>>, cols: nat, scales: Meta, zeros: Meta): (r: Result<PackedA>)
    requires Config.CudaValid(l) && Rect(w, cols)
    ensures PackWords(l.nbits, w, cols).Err? ==> r == Err(PackWords(l.nbits, w, cols).error)
    ensures PackWords(l.nbits, w, cols).Ok? ==>
      (r == Err(AssertionFailed) <==> l.hasScales == scales.Absent? || (!l.zeroIsTensor && zeros.Tensor?))
    ensures PackWords(l.nbits, w, cols).Ok? && l.hasScales != scales.Absent? && l.zeroIsTensor && zeros.Absent? ==>
      r == Err(TypeError)
    ensures r.Ok? ==> r.value.wq == PackWords(l.nbits, w, cols).value
    ensures r.Ok? && l.zeroIsTensor ==>
      r.value.scales == AsTensor(scales).value && r.value.zeros == AsTensor(zeros).value
    ensures r.Ok? && !l.zeroIsTensor ==> r.value.scales == Absent && r.value.zeros == zeros && !zeros.Tensor?
  {
    var wq :- PackWords(l.nbits, w, cols);
    if l.hasScales == scales.Absent? then Err(AssertionFailed)
    else if l.zeroIsTensor then
      // scales are present here, since a constructed layer has `has_scales == zero_is_tensor`
      var zs :- AsTensor(zeros);
      Ok(PackedA(wq, AsTensor(scales).value, zs))
    else if zeros.Tensor? then Err(AssertionFailed)
    else Ok(PackedA(wq, Absent, zeros))
  }

  /** `unpack` as written: it reads `self.W_q_packed`, an attribute `pack` never sets
      (it sets `self.W_q`), so every call raises AttributeError before the argument is
      looked at. */
  function UnpackAsWritten(n: nat, layer: PackedA, packed: seq<seq<Word>>, pcols: nat): (r: Result<seq<seq<Code>>>)
  {
    Err(MissingAttribute)
  }

  /** On every packed layer, `unpack` as written fails, while the corrected `Unpack` of
      the packed weight gives back the padded codes. */
  lemma {:induction false} UnpackAsWrittenFails(l: Config.CudaLayer, w: seq<seq<Code>>, cols: nat, scales: Meta, zeros: Meta,
                                                p: PackedA)
    requires Config.CudaValid(l) && Rect(w, cols) && RowsFit(w, l.nbits)
    requires PackCuda(l, w, cols, scales, zeros) == Ok(p)
    ensures var pcols := Div(PaddedCols(l.nbits, cols), Step(l.nbits));
      Rect(p.wq, pcols) &&
      UnpackAsWritten(l.nbits, p, p.wq, pcols) == Err(MissingAttribute) &&
      Unpack(l.nbits, p.wq, pcols) == Ok(Padded(l.nbits, w, cols))
  {
    PackWordsAccepts(l.nbits, w, cols);
    PackUnpack(l.nbits, w, cols);
  }
}

=== FILE: layout_b.dfy ===
/** The Triton backend's weight layout, `GemLiteLinearTriton.pack`.

    The codes are read as the (out, in) weight and transposed to (in, out). Each run of
    `32 // nbits` consecutive input rows becomes one row of `out` words: word o holds
    column o of the run, the first row's code in the low bits. The scales and zeros are
    read as (out, in // group_size) and transposed, one row per group. */
module LayoutB {

  import opened Base
  import opened Bits
  import opened Matrix
  import opened Runs
  import opened Config

  // ---------------------------------------------------------------------------------
  // reshape((rows, cols)).t()
  // ---------------------------------------------------------------------------------

  /** `xs.reshape((rows, cols)).t()`: the entries read row by row as (rows, cols), then
      transposed to (cols, rows). The reshape raises unless the counts match. */
  function ReshapeT<T>(xs: seq<T>, rows: nat, cols: nat): (r: Result<seq<seq<T>>>)
    ensures r.Ok? <==> |xs| == rows * cols
    ensures r.Err? ==> r.error == ShapeError
    ensures r.Ok? ==> |r.value| == cols && Rect(r.value, rows)
  {
    if |xs| != rows * cols then Err(ShapeError)
    else Ok(Transpose(Reshape(xs, rows, cols), rows, cols))
  }

  /** Entry (j, i) of the transposed matrix is entry i * cols + j of the input. */
  lemma {:induction false} ReshapeTAt<T>(xs: seq<T>, rows: nat, cols: nat, i: nat, j: nat)
    requires |xs| == rows * cols && i < rows && j < cols
    ensures i * cols + j < |xs| && ReshapeT(xs, rows, cols).value[j][i] == xs[i * cols + j]
  {
    ReshapeAt(xs, rows, cols, i, j);
    TransposeAt(Reshape(xs, rows, cols), rows, cols, i, j);
  }

  /** The way back: transpose a (cols, rows) matrix to (rows, cols) and read it row by row. */
  function FlattenT<T>(m: seq<seq<T>>, rows: nat, cols: nat): (xs: seq<T>)
    requires |m| == cols && Rect(m, rows)
    ensures |xs| == rows * cols
  {
    FlattenLen(Transpose(m, cols, rows), cols);
    Flatten(Transpose(m, cols, rows))
  }

  lemma {:induction false} ReshapeTRoundTrip<T>(xs: seq<T>, rows: nat, cols: nat)
    requires |xs| == rows * cols
    ensures FlattenT(ReshapeT(xs, rows, cols).value, rows, cols) == xs
  {
    var m := Reshape(xs, rows, cols);
    TransposeTwice(m, rows, cols);
    FlattenReshape(xs, rows, cols);
  }

  lemma {:induction false} ReshapeTInverse<T>(m: seq<seq<T>>, rows: nat, cols: nat)
    requires |m| == cols && Rect(m, rows)
    ensures ReshapeT(FlattenT(m, rows, cols), rows, cols) == Ok(m)
  {
    var t := Transpose(m, cols, rows);
    ReshapeFlatten(t, cols);
    TransposeTwice(m, cols, rows);
  }

  // ---------------------------------------------------------------------------------
  // Shapes
  // ---------------------------------------------------------------------------------

  /** `in_features // group_size`, the group count `pack` reshapes the metadata to; the
      constructor's buffers use `cdiv` instead, which differs when the group size does
      not divide in_features. */
  function NumGroups(l: TritonLayer): nat
    requires TritonValid(l)
  {
    Div(l.inFeatures, l.groupSize)
  }

  /** With in_features a multiple of 128, runs of step input rows cover the input rows
      exactly, and there are `in_features // 32 * nbits` of them: the row count of the
      buffer `pack` fills. */
  lemma {:induction false} RunCount(l: TritonLayer)
    requires TritonValid(l)
    ensures Divides(Step(l.nbits), l.inFeatures)
    ensures Div(l.inFeatures, Step(l.nbits)) == Div(l.inFeatures, 32) * l.nbits
  {
    var n, step := l.nbits, Step(l.nbits);
    var q := 4 * (l.inFeatures / 128);
    assert l.inFeatures == 32 * q;
    assert step * (n * q) == (step * n) * q;
    DivMul(step, n * q);
    DivMul(32, q);
    assert (n * q) == q * n;
  }

  /** The packed rows, step input rows to a row, cover in_features exactly. */
  predicate ShapedB(l: TritonLayer, p: PackedB)
    requires TritonValid(l)
  {
    |p.wq| == Div(l.inFeatures, Step(l.nbits)) && Rect(p.wq, l.outFeatures) &&
    |p.scales| == NumGroups(l) && Rect(p.scales, l.outFeatures) &&
    |p.zeros| == NumGroups(l) && Rect(p.zeros, l.outFeatures)
  }

  // ---------------------------------------------------------------------------------
  // pack
  // ---------------------------------------------------------------------------------

  /** The element counts `pack`'s three reshapes need: out * in codes, and out *
      (in // group_size) scales and zeros. */
  predicate Counts(l: TritonLayer, w: seq<Code>, scales: seq<real>, zeros: seq<real>)
    requires TritonValid(l)
  {
    |w| == l.outFeatures * l.inFeatures &&
    |scales| == l.outFeatures * NumGroups(l) && |zeros| == l.outFeatures * NumGroups(l)
  }

  /** The attributes `pack` sets: `W_q`, `scales` and `zeros`. */
  datatype PackedB = PackedB(wq: seq<seq<Word>>, scales: seq<seq<real>>, zeros: seq<seq<real>>)

  /** `GemLiteLinearTriton.pack(W_q, scales, zeros)`: transpose the weight to (in, out),
      OR each run of step input rows into one row of words, lowest field first, and
      transpose the scales and zeros to one row per group. Each reshape raises on an
      element count mismatch, the weight's first. */
  function PackB(l: TritonLayer, w: seq<Code>, scales: seq<real>, zeros: seq<real>): (r: Result<PackedB>)
    requires TritonValid(l)
    ensures r.Ok? <==> Counts(l, w, scales, zeros)
    ensures r.Err? ==> r.error == ShapeError
    ensures r.Ok? ==> ShapedB(l, r.value) && |r.value.wq| == Div(l.inFeatures, 32) * l.nbits
    ensures r.Ok? ==> var sc, zs := Reshape(scales, l.outFeatures, NumGroups(l)), Reshape(zeros, l.outFeatures, NumGroups(l));
      forall g, o :: 0 <= g < NumGroups(l) && 0 <= o < l.outFeatures ==>
        r.value.scales[g][o] == sc[o][g] && r.value.zeros[g][o] == zs[o][g]
    ensures r.Ok? && AllFit(w, l.nbits) ==> ExtractB(l, r.value) == (w, scales, zeros)
  {
    var t :- ReshapeT(w, l.outFeatures, l.inFeatures);
    RunCount(l);
    var wq := PackRuns(l.nbits, BottomFirst, t, l.outFeatures);
    var sc :- ReshapeT(scales, l.outFeatures, NumGroups(l));
    var zs :- ReshapeT(zeros, l.outFeatures, NumGroups(l));
    var p := PackedB(wq, sc, zs);
    assert AllFit(w, l.nbits) ==> ExtractB(l, p) == (w, scales, zeros) by {
      if AllFit(w, l.nbits) {
        ExtractPacked(l, w, scales, zeros, p);
      }
    }
    Ok(p)
  }

  /** p holds what `pack` stores for these arguments. */
  predicate PackedFrom(l: TritonLayer, w: seq<Code>, scales: seq<real>, zeros: seq<real>, p: PackedB)
    requires TritonValid(l)
  {
    Counts(l, w, scales, zeros) && Divides(Step(l.nbits), l.inFeatures) &&
    p.wq == PackRuns(l.nbits, BottomFirst, ReshapeT(w, l.outFeatures, l.inFeatures).value, l.outFeatures) &&
    p.scales == ReshapeT(scales, l.outFeatures, NumGroups(l)).value &&
    p.zeros == ReshapeT(zeros, l.outFeatures, NumGroups(l)).value
  }

  /** The inverse of `pack`, which the layer does not provide: spread each word's fields
      back over step input rows, transpose to (out, in), and read the metadata back. */
  function ExtractB(l: TritonLayer, p: PackedB): (r: (seq<Code>, seq<real>, seq<real>))
    requires TritonValid(l) && ShapedB(l, p)
    ensures |r.0| == l.outFeatures * l.inFeatures && AllFit(r.0, l.nbits)
    ensures |r.1| == l.outFeatures * NumGroups(l) && |r.2| == l.outFeatures * NumGroups(l)
  {
    var t := UnpackRuns(l.nbits, BottomFirst, p.wq, l.outFeatures);
    UnpackedInputRows(l, p.wq);
    (FlattenT(t, l.outFeatures, l.inFeatures),
     FlattenT(p.scales, l.outFeatures, NumGroups(l)),
     FlattenT(p.zeros, l.outFeatures, NumGroups(l)))
  }

  /** The unpacked words give back in_features input rows of fitting codes, and reading
      them back as (out, in) keeps every code fitting. */
  lemma {:induction false} UnpackedInputRows(l: TritonLayer, wq: seq<seq<Word>>)
    requires TritonValid(l) && |wq| == Div(l.inFeatures, Step(l.nbits)) && Rect(wq, l.outFeatures)
    ensures var t := UnpackRuns(l.nbits, BottomFirst, wq, l.outFeatures);
      |t| == l.inFeatures && AllFit(FlattenT(t, l.outFeatures, l.inFeatures), l.nbits)
  {
    var t := UnpackRuns(l.nbits, BottomFirst, wq, l.outFeatures);
    RunCount(l);
    DividesMul(Step(l.nbits), l.inFeatures);
    assert |t| == l.inFeatures;
    FlattenTFits(t, l.outFeatures, l.inFeatures, l.nbits);
  }

  /** Transposing and flattening fitting codes gives fitting codes. */
  lemma {:induction false} FlattenTFits(m: seq<seq<Code>>, rows: nat, cols: nat, n: nat)
    requires |m| == cols && Rect(m, rows) && RowsFit(m, n)
    ensures AllFit(FlattenT(m, rows, cols), n)
  {
    var xs := FlattenT(m, rows, cols);
    var t := Transpose(m, cols, rows);
    forall k | 0 <= k < |xs|
      ensures Fits(xs[k], n)
    {
      ReshapeFlatten(t, cols);
      var i, j := RowSplit(k, cols, rows);
      ReshapeAt(xs, rows, cols, i, j);
      TransposeAt(m, cols, rows, j, i);
      assert AllFit(m[j], n);
    }
  }

  /** Reading fitting codes as (rows, cols) and transposing keeps every code fitting. */
  lemma {:induction false} ReshapeTFits(xs: seq<Code>, rows: nat, cols: nat, n: nat)
    requires |xs| == rows * cols && AllFit(xs, n)
    ensures RowsFit(ReshapeT(xs, rows, cols).value, n)
  {
    var t := ReshapeT(xs, rows, cols).value;
    forall j | 0 <= j < |t|
      ensures AllFit(t[j], n)
    {
      forall i | 0 <= i < |t[j]|
        ensures Fits(t[j][i], n)
      {
        ReshapeTAt(xs, rows, cols, i, j);
      }
    }
  }

  // ---------------------------------------------------------------------------------
  // Properties
  // ---------------------------------------------------------------------------------

  /** What `pack`'s loop computes, entry by entry: the code of output o at input j, reading
      the codes as the (out, in) weight, sits in packed row j // step, word o, field
      j % step, at shift `(j % step) * nbits`. */
  lemma {:induction false} PackBField(l: TritonLayer, w: seq<Code>, scales: seq<real>, zeros: seq<real>, j: nat, o: nat)
    requires TritonValid(l) && AllFit(w, l.nbits) && Counts(l, w, scales, zeros)
    requires j < l.inFeatures && o < l.outFeatures
    ensures PackB(l, w, scales, zeros).Ok?
    ensures Div(j, Step(l.nbits)) < |PackB(l, w, scales, zeros).value.wq|
    ensures var row, s := Div(j, Step(l.nbits)), Mod(j, Step(l.nbits));
      Field(PackB(l, w, scales, zeros).value.wq[row][o], FieldShift(l.nbits, BottomFirst, s), l.nbits) ==
      Reshape(w, l.outFeatures, l.inFeatures)[o][j]
  {
    var step := Step(l.nbits);
    var t := ReshapeT(w, l.outFeatures, l.inFeatures).value;
    RunCount(l);
    DividesMul(step, l.inFeatures);
    var r, s := RowSplit(j, step, Div(l.inFeatures, step));
    DivModOf(r, s, step);
    assert PackB(l, w, scales, zeros).value.wq == PackRuns(l.nbits, BottomFirst, t, l.outFeatures);
    TransposedField(l.nbits, w, l.outFeatures, l.inFeatures, r, o, s);
    ReshapeAt(w, l.outFeatures, l.inFeatures, o, j);
  }

  /** The same, for runs of rows of the transposed codes. */
  lemma {:induction false} TransposedField(n: nat, w: seq<Code>, outF: nat, inF: nat, r: nat, o: nat, s: nat)
    requires Supported(n) && AllFit(w, n) && |w| == outF * inF && Divides(Step(n), inF)
    requires r < Div(inF, Step(n)) && o < outF && s < Step(n)
    ensures At(r, Step(n), s) < inF
    ensures var t := ReshapeT(w, outF, inF).value; var k := At(o, inF, At(r, Step(n), s));
      k < |w| && Field(PackRuns(n, BottomFirst, t, outF)[r][o], FieldShift(n, BottomFirst, s), n) == w[k]
  {
    var t := ReshapeT(w, outF, inF).value;
    ReshapeTFits(w, outF, inF, n);
    PackRunsField(n, BottomFirst, t, outF, r, o, s);
    ReshapeTAt(w, outF, inF, o, At(r, Step(n), s));
  }

  /** Extracting what `pack` stored gives back the codes, scales and zeros. */
  lemma {:induction false} ExtractPacked(l: TritonLayer, w: seq<Code>, scales: seq<real>, zeros: seq<real>, p: PackedB)
    requires TritonValid(l) && AllFit(w, l.nbits) && PackedFrom(l, w, scales, zeros, p)
    ensures ShapedB(l, p) && ExtractB(l, p) == (w, scales, zeros)
  {
    var n := l.nbits;
    var t := ReshapeT(w, l.outFeatures, l.inFeatures).value;
    RunCount(l);
    ReshapeTFits(w, l.outFeatures, l.inFeatures, n);
    RunsRoundTrip(n, BottomFirst, t, l.outFeatures);
    ReshapeTRoundTrip(w, l.outFeatures, l.inFeatures);
    ReshapeTRoundTrip(scales, l.outFeatures, NumGroups(l));
    ReshapeTRoundTrip(zeros, l.outFeatures, NumGroups(l));
  }

  /** Packing what was extracted gives back the packed layer. */
  lemma {:induction false} PackBInverse(l: TritonLayer, p: PackedB)
    requires TritonValid(l) && ShapedB(l, p)
    ensures var x := ExtractB(l, p); PackB(l, x.0, x.1, x.2) == Ok(p)
  {
    var n := l.nbits;
    var t := UnpackRuns(n, BottomFirst, p.wq, l.outFeatures);
    UnpackedInputRows(l, p.wq);
    ReshapeTInverse(t, l.outFeatures, l.inFeatures);
    RunsInverse(n, BottomFirst, p.wq, l.outFeatures);
    ReshapeTInverse(p.scales, l.outFeatures, NumGroups(l));
    ReshapeTInverse(p.zeros, l.outFeatures, NumGroups(l));
  }
}

=== FILE: matrix.dfy ===
/** Two-dimensional tensors as sequences of rows, with the torch shape operations
    the packers use: row-major flattening, `reshape`, `.t()` and right padding. */
module Matrix {

  import opened Base

  /** Every row has `cols` entries: the matrix has shape (|m|, cols). */
  predicate Rect<T>(m: seq<seq<T>>, cols: nat)
  {
    forall i :: 0 <= i < |m| ==> |m[i]| == cols
  }

  /** The position of entry (i, j) of a matrix with `cols` columns read row by row. */
  function At(i: nat, cols: nat, j: nat): nat
  {
    i * cols + j
  }

  /** Row-major flattening, `t.reshape(-1)`. */
  function Flatten<T>(m: seq<seq<T>>): seq<T>
    decreases |m|
  {
    if |m| == 0 then [] else m[0] + Flatten(m[1..])
  }

  /** `xs.reshape(rows, cols)`: row i holds entries i * cols .. i * cols + cols - 1. */
  function Reshape<T>(xs: seq<T>, rows: nat, cols: nat): (m: seq<seq<T>>)
    requires |xs| == rows * cols
    ensures |m| == rows && Rect(m, cols)
    decreases rows
  {
    if rows == 0 then []
    else
      assert |xs[cols..]| == (rows - 1) * cols;
      [xs[..cols]] + Reshape(xs[cols..], rows - 1, cols)
  }

  /** `m.t()` of a (rows, cols) matrix. */
  function Transpose<T>(m: seq<seq<T>>, rows: nat, cols: nat): (t: seq<seq<T>>)
    requires |m| == rows && Rect(m, cols)
    ensures |t| == cols && Rect(t, rows)
  {
    seq(cols, j requires 0 <= j < cols => seq(rows, i requires 0 <= i < rows => m[i][j]))
  }

  /** `torch.nn.functional.pad(m, (0, p), value=v)`: p copies of v after every row. */
  function PadCols<T>(m: seq<seq<T>>, p: nat, v: T): (r: seq<seq<T>>)
    ensures |r| == |m|
  {
    seq(|m|, i requires 0 <= i < |m| => m[i] + seq(p, _ => v))
  }

  lemma {:induction false} FlattenCons<T>(row: seq<T>, m: seq<seq<T>>)
    ensures Flatten([row] + m) == row + Flatten(m)
  {
    assert ([row] + m)[1..] == m;
  }

  /** A (rows, cols) matrix has rows * cols entries. */
  lemma {:induction false} FlattenLen<T>(m: seq<seq<T>>, cols: nat)
    requires Rect(m, cols)
    ensures |Flatten(m)| == |m| * cols
    decreases |m|
  {
    if |m| > 0 {
      assert Rect(m[1..], cols) by {
        forall i | 0 <= i < |m| - 1
          ensures |m[1..][i]| == cols
        {
          assert m[1..][i] == m[i + 1];
        }
      }
      FlattenLen(m[1..], cols);
    }
  }

  /** Reshaping and flattening again gives back the entries in order. */
  lemma {:induction false} FlattenReshape<T>(xs: seq<T>, rows: nat, cols: nat)
    requires |xs| == rows * cols
    ensures Flatten(Reshape(xs, rows, cols)) == xs
    decreases rows
  {
    if rows > 0 {
      var rest := xs[cols..];
      assert |rest| == (rows - 1) * cols;
      FlattenCons(xs[..cols], Reshape(rest, rows - 1, cols));
      FlattenReshape(rest, rows - 1, cols);
      assert xs[..cols] + rest == xs;
    }
  }

  /** Flattening a (rows, cols) matrix and reshaping it to (rows, cols) is the identity. */
  lemma {:induction false} ReshapeFlatten<T>(m: seq<seq<T>>, cols: nat)
    requires Rect(m, cols)
    ensures |Flatten(m)| == |m| * cols && Reshape(Flatten(m), |m|, cols) == m
    decreases |m|
  {
    FlattenLen(m, cols);
    if |m| > 0 {
      var tail := m[1..];
      assert Rect(tail, cols) by {
        forall i | 0 <= i < |tail|
          ensures |tail[i]| == cols
        {
          assert tail[i] == m[i + 1];
        }
      }
      ReshapeFlatten(tail, cols);
      var xs := Flatten(m);
      assert xs == m[0] + Flatten(tail);
      assert xs[..cols] == m[0];
      assert xs[cols..] == Flatten(tail);
      assert [m[0]] + tail == m;
    }
  }

  /** Entry (i, j) of `xs.reshape(rows, cols)` is `xs[i * cols + j]`. */
  lemma {:induction false} ReshapeAt<T>(xs: seq<T>, rows: nat, cols: nat, i: nat, j: nat)
    requires |xs| == rows * cols && i < rows && j < cols
    ensures i * cols + j < |xs| && Reshape(xs, rows, cols)[i][j] == xs[i * cols + j]
    decreases i
  {
    RowStart(rows, cols, i);
    var rest := xs[cols..];
    if i > 0 {
      ReshapeAt(rest, rows - 1, cols, i - 1, j);
      assert Reshape(xs, rows, cols)[i] == Reshape(rest, rows - 1, cols)[i - 1];
      assert rest[(i - 1) * cols + j] == xs[i * cols + j];
    }
  }

  /** Row i of a (rows, cols) layout starts cols entries after row i - 1 and ends in range. */
  lemma {:induction false} RowStart(rows: nat, cols: nat, i: nat)
    requires i < rows
    ensures i * cols + cols <= rows * cols
    ensures rows * cols - cols == (rows - 1) * cols
    ensures i > 0 ==> (i - 1) * cols + cols == i * cols
  {
    MulStep(cols, i, rows);
    assert cols * rows == rows * cols && cols * i == i * cols;
  }

  /** Entry (j, i) of the transpose is entry (i, j) of the matrix. */
  lemma {:induction false} TransposeAt<T>(m: seq<seq<T>>, rows: nat, cols: nat, i: nat, j: nat)
    requires |m| == rows && Rect(m, cols) && i < rows && j < cols
    ensures Transpose(m, rows, cols)[j][i] == m[i][j]
  {
  }

  /** Transposing twice gives back the matrix. */
  lemma {:induction false} TransposeTwice<T>(m: seq<seq<T>>, rows: nat, cols: nat)
    requires |m| == rows && Rect(m, cols)
    ensures Transpose(Transpose(m, rows, cols), cols, rows) == m
  {
    var t := Transpose(m, rows, cols);
    var tt := Transpose(t, cols, rows);
    forall i | 0 <= i < rows
      ensures tt[i] == m[i]
    {
      forall j | 0 <= j < cols
        ensures tt[i][j] == m[i][j]
      {
        TransposeAt(t, cols, rows, j, i);
        TransposeAt(m, rows, cols, i, j);
      }
    }
  }

  /** Padding keeps every row as a prefix, fills the new columns with v, and yields
      a rectangular matrix `p` columns wider. */
  lemma {:induction false} PadColsShape<T>(m: seq<seq<T>>, cols: nat, p: nat, v: T)
    requires Rect(m, cols)
    ensures Rect(PadCols(m, p, v), cols + p)
    ensures forall i :: 0 <= i < |m| ==> PadCols(m, p, v)[i][..cols] == m[i]
    ensures forall i, j :: 0 <= i < |m| && cols <= j < cols + p ==> PadCols(m, p, v)[i][j] == v
  {
  }

  /** Column t of a matrix with `cols` columns, `m[:, t]`. */
  function Column<T>(m: seq<seq<T>>, cols: nat, t: nat): (c: seq<T>)
    requires Rect(m, cols) && t < cols
    ensures |c| == |m|
  {
    seq(|m|, i requires 0 <= i < |m| => m[i][t])
  }

  /** Padding by nothing changes nothing. */
  lemma {:induction false} PadColsZero<T>(m: seq<seq<T>>, v: T)
    ensures PadCols(m, 0, v) == m
  {
    var r := PadCols(m, 0, v);
    forall i | 0 <= i < |m|
      ensures r[i] == m[i]
    {
      assert r[i] == m[i] + [];
    }
  }

  /** Every entry of the flattening is an entry of some row. */
  lemma {:induction false} FlattenIn<T>(m: seq<seq<T>>, x: T)
    requires x in Flatten(m)
    ensures exists i :: 0 <= i < |m| && x in m[i]
    decreases |m|
  {
    if x !in m[0] {
      FlattenIn(m[1..], x);
      var i :| 0 <= i < |m[1..]| && x in m[1..][i];
      assert m[1..][i] == m[i + 1];
    }
  }

  /** Every entry of a reshaped sequence is an entry of the sequence. */
  lemma {:induction false} ReshapeIn<T>(xs: seq<T>, rows: nat, cols: nat, i: nat, x: T)
    requires |xs| == rows * cols && i < rows && x in Reshape(xs, rows, cols)[i]
    ensures x in xs
    decreases rows
  {
    var rest := xs[cols..];
    assert |rest| == (rows - 1) * cols;
    if i > 0 {
      assert Reshape(xs, rows, cols)[i] == Reshape(rest, rows - 1, cols)[i - 1];
      ReshapeIn(rest, rows - 1, cols, i - 1, x);
    }
  }

  /** Entry (i, j) of a (rows, cols) matrix sits at i * cols + j of its flattening. */
  lemma {:induction false} FlattenAt<T>(m: seq<seq<T>>, cols: nat, i: nat, j: nat)
    requires Rect(m, cols) && i < |m| && j < cols
    ensures i * cols + j < |Flatten(m)| && Flatten(m)[i * cols + j] == m[i][j]
  {
    ReshapeFlatten(m, cols);
    ReshapeAt(Flatten(m), |m|, cols, i, j);
  }
}

=== FILE: runs.dfy ===
/** Packing runs of `32 // nbits` rows of codes into one row of words, the step both
    backends share. In a run of step rows with `cols` columns, word t gathers column t:
    the code of run row i goes into field i. The CUDA layout puts row 0 in the top
    bits (`shift = 32 - nbits, 32 - 2 * nbits, ...`), the Triton layout in the low
    bits (`shift = 0, nbits, 2 * nbits, ...`). */
module Runs {

  import opened Base
  import opened Bits
  import opened Matrix

  /** Which end of the word the first row of a run occupies. */
  datatype Order = TopFirst | BottomFirst

  /** Every code of the matrix fits in n bits. */
  predicate RowsFit(m: seq<seq<Code>>, n: nat)
  {
    forall i :: 0 <= i < |m| ==> AllFit(m[i], n)
  }

  // ---------------------------------------------------------------------------------
  // One word
  // ---------------------------------------------------------------------------------

  function PackWord(n: nat, o: Order, cs: seq<Code>): Word
    requires Supported(n) && |cs| == Step(n)
  {
    match o
    case TopFirst => PackMsb(n, cs)
    case BottomFirst => PackLsb(n, cs)
  }

  function UnpackWord(n: nat, o: Order, w: Word): (cs: seq<Code>)
    requires Supported(n)
    ensures |cs| == Step(n) && AllFit(cs, n)
  {
    match o
    case TopFirst => UnpackWordMsb(n, w)
    case BottomFirst => UnpackWordLsb(n, w)
  }

  /** The shift of field i: `32 - (i + 1) * nbits` from the top, `i * nbits` from the bottom. */
  function FieldShift(n: nat, o: Order, i: nat): (s: nat)
    requires Supported(n) && i < Step(n)
    ensures s + n <= 32
  {
    MulStep(n, i, Step(n));
    match o
    case TopFirst => 32 - n * (i + 1)
    case BottomFirst => n * i
  }

  lemma {:induction false} WordRoundTrip(n: nat, o: Order, cs: seq<Code>)
    requires Supported(n) && |cs| == Step(n) && AllFit(cs, n)
    ensures UnpackWord(n, o, PackWord(n, o, cs)) == cs
  {
    match o
    case TopFirst => PackMsbRoundTrip(n, cs);
    case BottomFirst => PackLsbRoundTrip(n, cs);
  }

  lemma {:induction false} WordInverse(n: nat, o: Order, w: Word)
    requires Supported(n)
    ensures PackWord(n, o, UnpackWord(n, o, w)) == w
  {
    match o
    case TopFirst => PackMsbOfUnpack(n, w);
    case BottomFirst => PackLsbOfUnpack(n, w);
  }

  /** Code i of a packed word sits in field i. */
  lemma {:induction false} WordField(n: nat, o: Order, cs: seq<Code>, i: nat)
    requires Supported(n) && |cs| == Step(n) && AllFit(cs, n) && i < Step(n)
    ensures Field(PackWord(n, o, cs), FieldShift(n, o, i), n) == cs[i]
  {
    match o
    case TopFirst => PackMsbField(n, cs, i);
    case BottomFirst => PackLsbField(n, cs, i);
  }

  // ---------------------------------------------------------------------------------
  // One run
  // ---------------------------------------------------------------------------------

  /** step rows packed into one row of words: word t gathers column t. */
  function PackRun(n: nat, o: Order, g: seq<seq<Code>>, cols: nat): (ws: seq<Word>)
    requires Supported(n) && |g| == Step(n) && Rect(g, cols)
    ensures |ws| == cols
  {
    seq(cols, t requires 0 <= t < cols => PackWord(n, o, Column(g, cols, t)))
  }

  /** One row of words spread over step rows: row i takes field i of every word. */
  function UnpackRun(n: nat, o: Order, ws: seq<Word>): (g: seq<seq<Code>>)
    requires Supported(n)
    ensures |g| == Step(n) && Rect(g, |ws|) && RowsFit(g, n)
  {
    seq(Step(n), i requires 0 <= i < Step(n) =>
      seq(|ws|, t requires 0 <= t < |ws| => UnpackWord(n, o, ws[t])[i]))
  }

  /** The columns of a matrix of fitting codes hold fitting codes. */
  lemma {:induction false} ColumnFits(g: seq<seq<Code>>, cols: nat, t: nat, n: nat)
    requires Rect(g, cols) && RowsFit(g, n) && t < cols
    ensures AllFit(Column(g, cols, t), n)
  {
    var c := Column(g, cols, t);
    forall k | 0 <= k < |c|
      ensures Fits(c[k], n)
    {
      assert c[k] == g[k][t];
      assert AllFit(g[k], n);
    }
  }

  lemma {:induction false} RunRoundTrip(n: nat, o: Order, g: seq<seq<Code>>, cols: nat)
    requires Supported(n) && |g| == Step(n) && Rect(g, cols) && RowsFit(g, n)
    ensures UnpackRun(n, o, PackRun(n, o, g, cols)) == g
  {
    var ws := PackRun(n, o, g, cols);
    var h := UnpackRun(n, o, ws);
    forall i | 0 <= i < Step(n)
      ensures h[i] == g[i]
    {
      forall t | 0 <= t < cols
        ensures h[i][t] == g[i][t]
      {
        var c := Column(g, cols, t);
        ColumnFits(g, cols, t, n);
        WordRoundTrip(n, o, c);
        assert h[i][t] == UnpackWord(n, o, ws[t])[i];
      }
    }
  }

  /** Column t of an unpacked run is word t unpacked. */
  lemma {:induction false} ColumnOfUnpack(n: nat, o: Order, ws: seq<Word>, t: nat)
    requires Supported(n) && t < |ws|
    ensures Column(UnpackRun(n, o, ws), |ws|, t) == UnpackWord(n, o, ws[t])
  {
    var g := UnpackRun(n, o, ws);
    var c := Column(g, |ws|, t);
    forall i | 0 <= i < Step(n)
      ensures c[i] == UnpackWord(n, o, ws[t])[i]
    {
      assert c[i] == g[i][t];
    }
  }

  lemma {:induction false} RunInverse(n: nat, o: Order, ws: seq<Word>)
    requires Supported(n)
    ensures PackRun(n, o, UnpackRun(n, o, ws), |ws|) == ws
  {
    var g := UnpackRun(n, o, ws);
    var vs := PackRun(n, o, g, |ws|);
    forall t | 0 <= t < |ws|
      ensures vs[t] == ws[t]
    {
      ColumnOfUnpack(n, o, ws, t);
      WordInverse(n, o, ws[t]);
    }
  }

  // ---------------------------------------------------------------------------------
  // All runs
  // ---------------------------------------------------------------------------------

  /** The rows have `cols` entries each and split evenly into runs of step. */
  predicate WholeRuns(n: nat, ts: seq<seq<Code>>, cols: nat)
  {
    Supported(n) && Rect(ts, cols) && Divides(Step(n), |ts|)
  }

  /** Rows g * step .. g * step + step - 1, run g. */
  function RunOf<T>(n: nat, ts: seq<T>, g: nat): (run: seq<T>)
    requires Supported(n) && Divides(Step(n), |ts|) && g < Div(|ts|, Step(n))
    ensures |run| == Step(n) && g * Step(n) + Step(n) <= |ts|
    ensures run == ts[g * Step(n)..g * Step(n) + Step(n)]
  {
    RunStart(g, Step(n), |ts|);
    ts[g * Step(n)..g * Step(n) + Step(n)]
  }

  /** Consecutive runs of step rows, each packed into one row of words: packed row g
      is run g. */
  function PackRuns(n: nat, o: Order, ts: seq<seq<Code>>, cols: nat): (ps: seq<seq<Word>>)
    requires WholeRuns(n, ts, cols)
    ensures |ps| == Div(|ts|, Step(n)) && Rect(ps, cols)
  {
    seq(Div(|ts|, Step(n)), g requires 0 <= g < Div(|ts|, Step(n)) =>
      SliceRect(ts, cols, g * Step(n), Step(n));
      PackRun(n, o, RunOf(n, ts, g), cols))
  }

  /** Every row of words spread over step rows, in order: row j is row j % step of the
      run that packed row j // step unpacks to. */
  function UnpackRuns(n: nat, o: Order, ps: seq<seq<Word>>, cols: nat): (ts: seq<seq<Code>>)
    requires Supported(n) && Rect(ps, cols)
    ensures |ts| == |ps| * Step(n) && Rect(ts, cols) && RowsFit(ts, n)
  {
    seq(|ps| * Step(n), j requires 0 <= j < |ps| * Step(n) => UnpackedRow(n, o, ps, cols, j))
  }

  /** Row j of the unpacked runs: field j % step of packed row j // step. */
  function UnpackedRow(n: nat, o: Order, ps: seq<seq<Word>>, cols: nat, j: nat): (row: seq<Code>)
    requires Supported(n) && Rect(ps, cols) && j < |ps| * Step(n)
    ensures |row| == cols && AllFit(row, n)
  {
    RunIndex(j, Step(n), |ps|);
    UnpackRun(n, o, ps[Div(j, Step(n))])[Mod(j, Step(n))]
  }

  /** Row j of |ps| runs of step rows lies in run j // step. */
  lemma {:induction false} RunIndex(j: nat, step: nat, count: nat)
    requires step > 0 && j < count * step
    ensures Div(j, step) < count
    decreases j
  {
    if j >= step {
      assert (count - 1) * step == count * step - step;
      RunIndex(j - step, step, count - 1);
    }
  }

  /** Row j of |count| runs of step rows is row j % step of run j // step. */
  lemma {:induction false} RowSplit(j: nat, step: nat, count: nat) returns (g: nat, i: nat)
    requires step > 0 && j < count * step
    ensures g < count && i < step && g * step + i == j
  {
    g, i := Div(j, step), Mod(j, step);
    RunIndex(j, step, count);
    DivMod(j, step);
  }

  /** Quotient and remainder of g * step + i, for i < step. */
  lemma {:induction false} DivModOf(g: nat, i: nat, step: nat)
    requires i < step
    ensures Div(g * step + i, step) == g && Mod(g * step + i, step) == i
  {
    var j := g * step + i;
    DivMod(j, step);
    var q, r := Div(j, step), Mod(j, step);
    assert step * q + r == step * g + i;
    if q < g {
      MulStep(step, q, g);
    } else if g < q {
      MulStep(step, g, q);
    }
  }

  /** Run g starts g * step rows in and lies inside the rows. */
  lemma {:induction false} RunStart(g: nat, step: nat, len: nat)
    requires step > 0 && Divides(step, len) && g < Div(len, step)
    ensures g * step + step <= len
  {
    DividesMul(step, len);
    MulStep(step, g, Div(len, step));
    assert step * g == g * step;
  }

  /** A slice of a rectangular matrix is rectangular. */
  lemma {:induction false} SliceRect<T>(ts: seq<seq<T>>, cols: nat, a: nat, len: nat)
    requires Rect(ts, cols)
    ensures a + len <= |ts| ==> Rect(ts[a..a + len], cols)
  {
    if a + len <= |ts| {
      var run := ts[a..a + len];
      forall k | 0 <= k < len
        ensures |run[k]| == cols
      {
        assert run[k] == ts[a + k];
      }
    }
  }

  /** A slice of rows of fitting codes holds fitting codes. */
  lemma {:induction false} SliceFits(ts: seq<seq<Code>>, cols: nat, n: nat, a: nat, len: nat)
    requires Rect(ts, cols) && RowsFit(ts, n) && a + len <= |ts|
    ensures Rect(ts[a..a + len], cols) && RowsFit(ts[a..a + len], n)
  {
    var run := ts[a..a + len];
    forall k | 0 <= k < len
      ensures |run[k]| == cols && AllFit(run[k], n)
    {
      assert run[k] == ts[a + k];
    }
  }

  /** Row g * step + i of the unpacked rows is row i of packed row g unpacked. */
  lemma {:induction false} UnpackedRowAt(n: nat, o: Order, ps: seq<seq<Word>>, cols: nat, g: nat, i: nat)
    requires Supported(n) && Rect(ps, cols) && g < |ps| && i < Step(n)
    ensures g * Step(n) + i < |ps| * Step(n)
    ensures UnpackedRow(n, o, ps, cols, g * Step(n) + i) == UnpackRun(n, o, ps[g])[i]
  {
    var step := Step(n);
    MulStep(step, g, |ps|);
    assert step * g == g * step && step * |ps| == |ps| * step;
    DivModOf(g, i, step);
  }

  /** The packed rows, step to a row, cover the rows exactly. */
  lemma {:induction false} PackedRuns(n: nat, o: Order, ts: seq<seq<Code>>, cols: nat)
    requires WholeRuns(n, ts, cols)
    ensures |PackRuns(n, o, ts, cols)| * Step(n) == |ts|
  {
    DividesMul(Step(n), |ts|);
  }

  /** Row i of run g comes back from the packed rows. */
  lemma {:induction false} RunsRoundTripAt(n: nat, o: Order, ts: seq<seq<Code>>, cols: nat, g: nat, i: nat)
    requires WholeRuns(n, ts, cols) && RowsFit(ts, n)
    requires g < Div(|ts|, Step(n)) && i < Step(n)
    ensures g * Step(n) + i < |ts|
    ensures var ps := PackRuns(n, o, ts, cols);
      g * Step(n) + i < |ps| * Step(n) && UnpackedRow(n, o, ps, cols, g * Step(n) + i) == ts[g * Step(n) + i]
  {
    var ps := PackRuns(n, o, ts, cols);
    var run := RunOf(n, ts, g);
    assert ps[g] == PackRun(n, o, run, cols);
    SliceFits(ts, cols, n, g * Step(n), Step(n));
    RunRoundTrip(n, o, run, cols);
    UnpackedRowAt(n, o, ps, cols, g, i);
  }

  lemma {:induction false} RunsRoundTrip(n: nat, o: Order, ts: seq<seq<Code>>, cols: nat)
    requires WholeRuns(n, ts, cols) && RowsFit(ts, n)
    ensures UnpackRuns(n, o, PackRuns(n, o, ts, cols), cols) == ts
  {
    var ps := PackRuns(n, o, ts, cols);
    var us := UnpackRuns(n, o, ps, cols);
    PackedRuns(n, o, ts, cols);
    forall j | 0 <= j < |ts|
      ensures us[j] == ts[j]
    {
      var g, i := RowSplit(j, Step(n), |ps|);
      RunsRoundTripAt(n, o, ts, cols, g, i);
    }
  }

  /** The unpacked rows split evenly into |ps| runs of step rows. */
  lemma {:induction false} UnpackedRuns(n: nat, o: Order, ps: seq<seq<Word>>, cols: nat)
    requires Supported(n) && Rect(ps, cols)
    ensures var us := UnpackRuns(n, o, ps, cols);
      WholeRuns(n, us, cols) && Div(|us|, Step(n)) == |ps|
  {
    assert |UnpackRuns(n, o, ps, cols)| == Step(n) * |ps|;
    DivMul(Step(n), |ps|);
  }

  /** Row i of run g of the unpacked rows is row i of packed row g unpacked. */
  lemma {:induction false} RunOfUnpackAt(n: nat, o: Order, ps: seq<seq<Word>>, cols: nat, g: nat, i: nat)
    requires Supported(n) && Rect(ps, cols) && g < |ps| && i < Step(n)
    ensures var us := UnpackRuns(n, o, ps, cols);
      WholeRuns(n, us, cols) && Div(|us|, Step(n)) == |ps| && RunOf(n, us, g)[i] == UnpackRun(n, o, ps[g])[i]
  {
    var us := UnpackRuns(n, o, ps, cols);
    UnpackedRuns(n, o, ps, cols);
    UnpackedRowAt(n, o, ps, cols, g, i);
    assert RunOf(n, us, g)[i] == us[g * Step(n) + i];
  }

  /** Run g of the unpacked rows is packed row g unpacked. */
  lemma {:induction false} RunOfUnpack(n: nat, o: Order, ps: seq<seq<Word>>, cols: nat, g: nat)
    requires Supported(n) && Rect(ps, cols) && g < |ps|
    ensures var us := UnpackRuns(n, o, ps, cols);
      WholeRuns(n, us, cols) && Div(|us|, Step(n)) == |ps| && RunOf(n, us, g) == UnpackRun(n, o, ps[g])
  {
    var us := UnpackRuns(n, o, ps, cols);
    UnpackedRuns(n, o, ps, cols);
    var run := RunOf(n, us, g);
    var want := UnpackRun(n, o, ps[g]);
    forall i | 0 <= i < Step(n)
      ensures run[i] == want[i]
    {
      RunOfUnpackAt(n, o, ps, cols, g, i);
    }
    assert run == want;
  }

  lemma {:induction false} RunsInverse(n: nat, o: Order, ps: seq<seq<Word>>, cols: nat)
    requires Supported(n) && Rect(ps, cols)
    ensures WholeRuns(n, UnpackRuns(n, o, ps, cols), cols) && PackRuns(n, o, UnpackRuns(n, o, ps, cols), cols) == ps
  {
    var us := UnpackRuns(n, o, ps, cols);
    UnpackedRuns(n, o, ps, cols);
    var qs := PackRuns(n, o, us, cols);
    forall g | 0 <= g < |ps|
      ensures qs[g] == ps[g]
    {
      RunOfUnpack(n, o, ps, cols, g);
      RunInverse(n, o, ps[g]);
    }
  }

  // ---------------------------------------------------------------------------------
  // Where each code goes
  // ---------------------------------------------------------------------------------

  /** The packing loop, entry by entry: field i of word t in packed row g holds the code
      of row g * step + i, column t. */
  lemma {:induction false} PackRunsField(n: nat, o: Order, ts: seq<seq<Code>>, cols: nat, g: nat, t: nat, i: nat)
    requires WholeRuns(n, ts, cols) && RowsFit(ts, n)
    requires g < Div(|ts|, Step(n)) && t < cols && i < Step(n)
    ensures g * Step(n) + i < |ts|
    ensures Field(PackRuns(n, o, ts, cols)[g][t], FieldShift(n, o, i), n) == ts[g * Step(n) + i][t]
  {
    var step := Step(n);
    var run := RunOf(n, ts, g);
    SliceFits(ts, cols, n, g * step, step);
    ColumnFits(run, cols, t, n);
    WordField(n, o, Column(run, cols, t), i);
  }
}
